=== FILE: README.md ===
# memory-palace: the data pipeline of `app.js`, in Dafny

The memory palace turns a tab-separated flashcard file into "anchors". An anchor is one card
with its text, an optional image and an optional sound. The anchors are hung on the walls of
the rooms of an A-Frame scene. This project models the pure part of that pipeline, which does
the following:

- It parses the TSV text into records (`parseTSV`, `extractImageSrc`, `extractAudioSrc`).
- It fingerprints the dataset and each anchor with a 32-bit rolling hash written in base 36
  (`hashString`, `createDatasetSignature`, `createAnchorId`).
- It resolves asset paths against a sanitized root (`sanitizeAssetRoot`, `buildAssetUrl`).
- It shuffles the anchors and deals them round-robin to the rooms. It then cuts each room's
  share into pages of the room's capacity and lets the user page through them
  (`shuffle`, `assignAnchorsToRooms`, `getRoomCapacity`, `paginate`, `changeRoomPage`, `clamp`).
- It places the anchors of a page on a grid of tiers, rows and columns
  (the integer part of `buildAnchorEntity`).
- It keeps the study progress tied to the dataset's signature
  (`applyStoredProgressToAnchors`, `markAnchorSeen`, `markAnchorHeard`).
- It keeps a list of saved layouts: newest first, unique by name, at most twelve
  (`updateSaveButtonState`, `saveCurrentPalace`, `deleteSavedPalace`).
- It filters anchors by a search query (`applySearchFilter`).
- `loadDataset` ties these together.

JavaScript strings are sequences of UTF-16 code units. Here they are `seq<CodeUnit>` with
`CodeUnit = 0..0xFFFF` (module `JsString`). String constants are written as code units, with
the text in a comment.

Modules, in dependency order:

- `Wrappers`: `Option` and `Result`.
- `JsString`: `trim`, `split`, `join`, `includes`, `||` on strings, and ASCII case folding.
- `Arith`: quotient and remainder facts.
- `Radix`: `Number.prototype.toString(base)` for non-negative integers, and its inverse.
- `Extract` and `Tsv`: the row parser and the two regular-expression scanners.
- `Fingerprint`: the hash, anchor ids and the dataset signature.
- `Assets`: asset roots and URLs.
- `Pages` and `Rooms`: pagination, the shuffle, the round-robin deal, capacities, paging.
- `Slots`: grid placement.
- `Progress`, `Saves`, `Search`: progress, saved layouts, search.
- `Palace`: `loadDataset`.

Three things are parameters instead of code. `decode` stands for `decodeHTMLEntities`.
`lower` stands for `toLowerCase`. `pick` stands for the draws of `Math.random` in `shuffle`:
iteration `i` swaps with `pick(i)`, read as `i` when it is past `i`. So every permutation the
source can produce comes from some `pick`. The two `Date.now()` readings of a save are plain inputs.

Two edge cases of the code worth naming:

- An anchor is dropped from the grid when its tier index is *at or past* the tier count
  (`tierIndex >= tiers`).
- With no rooms configured, `assignAnchorsToRooms` assigns nothing and leaves the room
  entities' pages alone.

## Model

| member | source | states |
|---|---|---|
| JsString.Trim | app.js:702 | the result is the input less a whitespace prefix and a whitespace suffix, and neither of its ends is whitespace |
| JsString.TrimEmptyIffBlank | app.js:702 | `line.trim()` is empty exactly when the line is all whitespace |
| JsString.TrimIdempotent | app.js:711 | trimming twice is trimming once |
| JsString.Split | app.js:705 | `split('\t')` gives at least one piece and no piece holds the separator |
| JsString.JoinSplit | app.js:705 | joining the pieces with the separator gives back the original line |
| JsString.SplitJoin | app.js:759 | splitting a join of separator-free pieces gives back the pieces |
| JsString.Includes | app.js:1182 | `includes` is true exactly when the needle occurs at some offset |
| Radix.ToRadix | app.js:774 | `toString(base)` yields a canonical numeral: non-empty, digits only, no leading zero |
| Radix.ValueOfToRadix | app.js:774 | reading the numeral back gives the number |
| Radix.ToRadixOfValue | app.js:774 | every canonical numeral is the rendering of its value |
| Radix.ToRadixInjective | app.js:764 | different numbers render differently |
| Tsv.Lines | app.js:699 | `split(/\r?\n/)` yields as many lines as splitting on LF, none holding an LF; each line but the last is its LF piece with the final CR dropped exactly when the piece ends in one, and the last is the last piece unchanged |
| Tsv.LinesOfCrLfJoin | app.js:699 | LF-free lines joined with CR LF breaks split back into the same lines |
| Tsv.LinesOfLfJoin | app.js:699 | LF-free lines joined with bare LF breaks split back into the same lines when no line but the last ends in CR |
| Tsv.ParseLineKeeps | app.js:701-725 | a line is kept iff it is usable: not blank, at least 4 tab fields and a non-empty trimmed `ru` or `en`; the record holds the trimmed fields, the extracted references and the line's index |
| Tsv.Outcomes | app.js:701-725 | exactly the usable lines are kept, each as a record carrying its own index among all split lines |
| Tsv.OutcomesWellIndexed | app.js:724 | every kept record carries the index of its own line |
| Tsv.CollectSound | app.js:719-725 | each collected record is the kept outcome of its line |
| Tsv.CollectAscending | app.js:701-726 | collected records are in strictly increasing line order |
| Tsv.CollectComplete | app.js:701-726 | no kept line is missing from the result |
| Tsv.ParseTsv | app.js:698-728 | there are never more records than lines |
| Tsv.ParseTsvSpec | app.js:698-728 | the records are the parses of their own lines, in strictly increasing line order, and every usable line is covered |
| Tsv.ParsedRecordShape | app.js:702-724 | every record comes from an existing non-blank line with at least 4 columns, holds that line's trimmed first two fields, and one of them is non-empty |
| Tsv.UsableLineIsParsed | app.js:701-725 | every usable line is kept and its record is in the result |
| Extract.RunLength | app.js:734 | a greedy run `\s*` or `[^"']+` is the longest run of its class |
| Extract.ForcedRun | app.js:734 | a run followed by a code unit outside its class has exactly that length, so backtracking cannot change it |
| Extract.ImageShapeIsMatch | app.js:734 | every way `src\s*=\s*["']([^"']+)["']` (case-insensitive keyword) can match at an offset is found by the scanner with the same capture |
| Extract.ImageMatchIsShape | app.js:734 | everything the scanner finds at an offset is a match of the image pattern |
| Extract.AudioMatchAtIsPattern | app.js:745 | the scanner matches `\[sound:([^\]]+)\]` at an offset exactly when the pattern does, with the same capture |
| Extract.FirstHit | app.js:734 | the scan returns the least matching offset, or nothing when none matches |
| Extract.ExtractImageSrc | app.js:730-739 | a result is the decoded capture of a match, and nothing comes back only when the pattern matches nowhere |
| Extract.ExtractAudioSrc | app.js:741-750 | a result is the decoded capture of a match, and nothing comes back only when the pattern matches nowhere |
| Extract.ExtractImageLeftmost | app.js:734-736 | the leftmost match wins |
| Extract.ExtractAudioLeftmost | app.js:745-747 | the leftmost match wins |
| Extract.SoundTagRoundTrip | app.js:741-750 | `[sound:NAME]` yields the decoded NAME |
| Extract.SrcAttributeRoundTrip | app.js:730-739 | `src="URL"` yields the decoded URL |
| Fingerprint.ToInt32 | app.js:772 | `\|0` gives the signed 32-bit value congruent modulo 2^32, and leaves in-range values alone |
| Fingerprint.HashStep | app.js:771-772 | one loop step, operator by operator, stays in signed 32-bit range |
| Fingerprint.HashStepWraps | app.js:771-772 | a step on the wrapped hash is the wrapped step of the unbounded `31 * h + c` |
| Fingerprint.HashCode | app.js:769-773 | the loop computes ToInt32 of the unbounded polynomial hash |
| Fingerprint.HashString | app.js:768-775 | the result is a canonical base-36 numeral whose value is the magnitude of the wrapped hash, at most 2^31 |
| Fingerprint.HashStringEqual | app.js:774 | two hashes render the same exactly when the wrapped magnitudes agree |
| Fingerprint.AnchorId | app.js:763-766 | an id is "anchor-" followed by the canonical base-36 hash of `ru␟en␟index` |
| Fingerprint.AnchorKeyInjective | app.js:764 | when neither text holds "␟", two keys are equal iff the texts and indices are |
| Fingerprint.DatasetSignature | app.js:758-761 | the signature is a canonical base-36 numeral of value at most 2^31 |
| Fingerprint.SignatureSeesOnlyContent | app.js:759 | records with the same texts and references have the same signature |
| Fingerprint.SignatureIgnoresRowIndex | app.js:759 | moving records to other lines leaves the signature unchanged |
| Fingerprint.RowKeyInjective | app.js:759 | without separators in the fields, a row key determines its content |
| Fingerprint.SourceEmptyIff | app.js:759 | the signature source is empty exactly for no records |
| Fingerprint.SignatureSourceInjective | app.js:759 | without separators in the fields, two datasets have the same signature source iff they have the same contents |
| Assets.SanitizeAssetRoot | app.js:621-627 | "./" for an empty input; otherwise the input, with one slash added at most; the result always ends in a slash |
| Assets.SanitizeAddsSlashIffMissing | app.js:623-626 | a slash is added exactly when the input lacks a trailing one |
| Assets.SanitizeFixedPoints | app.js:621-627 | the roots left alone are exactly those ending in a slash; sanitizing is idempotent |
| Assets.BuildAssetUrl | app.js:1015-1023 | nothing exactly for a missing or empty path; otherwise the URL ends with the path |
| Assets.AbsoluteIgnoresRoot | app.js:1019-1020 | an `http://`, `https://` or `data:` path is returned unchanged, whatever the root |
| Assets.RelativeBehindRoot | app.js:1022 | a relative path becomes the root followed by the path |
| Assets.SanitizedRootSeparates | app.js:621-627 | under a sanitized root, a slash always precedes a relative path |
| Assets.SchemeIgnoresCase | app.js:1019 | the scheme test ignores ASCII letter case |
| Pages.Chunks | app.js:820-823 | no pages exactly for no items; every page holds 1..perPage items and all but the last hold exactly perPage |
| Pages.FlattenChunks | app.js:820-823 | the pages laid end to end are the items |
| Pages.ChunkContents | app.js:822 | page k holds the items from `k * perPage` to the next multiple or the end |
| Pages.Paginate | app.js:816-825 | there is always at least one page; with perPage > 0 pages are bounded by perPage, full except the last, and non-empty when there are items |
| Pages.FlattenPaginate | app.js:816-825 | paginating loses, duplicates and reorders nothing |
| Pages.PageCount | app.js:816-825 | one page when perPage ≤ 0 or there are no items, else the ceiling of items / perPage |
| Pages.Clamp | app.js:1354-1356 | on a non-empty range the result is in range, and a value already in range is kept |
| Pages.ClampNearest | app.js:1354-1356 | the clamped value is the point of the range nearest to the value |
| Rooms.Swap | app.js:1349 | two positions trade places, the rest stay, the multiset is kept |
| Rooms.Shuffle | app.js:1346-1352 | the shuffle is a permutation |
| Rooms.ShuffleCanKeepOrder | app.js:1347-1350 | draws that pick the current position leave the order unchanged |
| Rooms.Push | app.js:790-793 | pushing grows only the chosen room's list, by that anchor |
| Rooms.Deal | app.js:788-794 | anchors go only to rooms of `roomOrder` |
| Rooms.DealColumns | app.js:788-794 | with distinct rooms, room k receives the anchors at positions k, k+n, k+2n, ..., in order |
| Rooms.DealBalanced | app.js:788-794 | any two rooms' counts differ by at most one |
| Rooms.PooledPush | app.js:793 | a push onto one of the rooms adds the anchor once to their pool |
| Rooms.DealKeepsAll | app.js:788-794 | with distinct rooms, the rooms together hold exactly the anchors |
| Rooms.GetRoomCapacity | app.js:808-814 | the room's own positive cap, else `roomCap.default`, else 12; a non-positive capacity can only come from `default` |
| Rooms.CapacityPositive | app.js:808-814 | a room's capacity is positive exactly when its own entry is positive or `default` is missing or positive |
| Rooms.AssignAnchorsToRooms | app.js:777-806 | no rooms: maps emptied and pages untouched; otherwise every room has a non-empty page list that concatenates to its share, and each configured room entity is back on page 0 |
| Rooms.RoomPages | app.js:796-800 | each room's share is paginated by its own capacity |
| Rooms.AssignmentDistribution | app.js:786-794 | the rooms hold a round-robin deal of a permutation of the anchors, exactly the anchors together |
| Rooms.AssignedPagesFollowCapacity | app.js:796-800 | a positive capacity bounds every page and fills all but the last; otherwise one page |
| Rooms.AssignedPagesNonEmpty | app.js:824 | after assignment every room has at least one page |
| Rooms.ChangeRoomPage | app.js:1132-1145 | without a current room or room entity nothing changes; otherwise only that room's page moves: by exactly delta when that stays in range, to the last page when it would pass the end, and to page 0 when it would go below it |
| Rooms.ChangeRoomPageAtEnds | app.js:1137 | "next" on the last page and "previous" on page 0 leave the layout unchanged |
| Rooms.ChangeRoomPageMovesBy | app.js:1137 | the page moves by exactly delta when that stays in range |
| Slots.GridOf | app.js:862-864 | columns are `cols ?? gridCols ?? 4`, rows `rows ?? gridRows ?? 3`, and tiers the given count when at least 1, else 1 |
| Slots.ResolveGrid | app.js:861-864 | the room's grid wins, then the config's placement; without either the grid is 4 by 3 with 2 tiers; tiers are at least 1 |
| Slots.RoomGridWins | app.js:861 | with a room grid, the config's placement plays no part |
| Slots.ExplicitPlacementKept | app.js:862-864 | a placement that gives columns, rows (under either key) and a positive tier count is taken as it is |
| Slots.SlotOf | app.js:870-885 | nothing iff the index is at least tiers · cols · rows; otherwise tier, row, column are in range, the wall side and rotation follow the tier's parity, and the slot gives back the index |
| Slots.TierBound | app.js:871-872 | the tier is out of range exactly when the index passes the grid's capacity |
| Slots.SlotOfPosition | app.js:870-877 | every position of the grid is the slot of its index |
| Slots.SlotsDistinct | app.js:870-877 | different indices never share a slot |
| Slots.DefaultGridHolds24 | app.js:861-874 | the default grid places exactly the first 24 anchors of a page |
| Progress.ApplyStoredProgress | app.js:1337-1344 | the signature is recorded; progress for another or an empty signature is emptied, progress for the same one is kept |
| Progress.ApplyStoredProgressTwice | app.js:1337-1344 | applying the same non-empty signature twice is applying it once |
| Progress.ProgressKeptIff | app.js:1338 | non-empty progress survives exactly when the signature is non-empty and unchanged |
| Progress.MarkSeen | app.js:1284-1290 | the id joins the seen set; heard and signature are untouched; marking again changes nothing |
| Progress.MarkHeard | app.js:1292-1298 | the id joins the heard set; seen and signature are untouched; marking again changes nothing |
| Progress.MarksCommute | app.js:1284-1298 | marks are idempotent and commute |
| Progress.MarkAll | app.js:1284-1298 | after any sequence of marks everything marked before still is, and every marked id is in its set |
| Saves.Filter | app.js:1386 | filtering keeps only passing entries and never grows the list |
| Saves.FilterMembership | app.js:1386 | an entry survives exactly when it was there and passes |
| Saves.FilterAppend | app.js:1386 | filtering a concatenation filters each part in order |
| Saves.FilterKeepsUnique | app.js:1386 | filtering keeps names unique |
| Saves.SaveId | app.js:1377 | the id is the decimal time, "-", then the base-36 hash of the name followed by the signature or "null" |
| Saves.SaveIdTime | app.js:1377 | ids made at different times differ, whatever the names and signatures |
| Saves.SaveCurrentPalace | app.js:1358-1393 | rejected iff the save button would be disabled, with the missing dataset reported first; otherwise the new entry (its id from the clock, the trimmed name, the save time, the text, root and signature) is first, the list holds 1..12 entries, the rest are older entries of other names, and the new id is current |
| Saves.SaveKeepsOrder | app.js:1386 | after the new entry come the older entries of other names, in their order, as many as fit in 12 |
| Saves.SaveKeepsNamesUnique | app.js:1386 | names stay unique |
| Saves.SaveReplaceKeepsCount | app.js:1386 | re-saving an existing name keeps the list's length |
| Saves.SaveEvictsOldest | app.js:1386 | saving a new name into a full list drops the oldest entry |
| Saves.DeleteSavedPalace | app.js:1480-1488 | no entry with the id remains; the rest are a subsequence of the list holding every other entry as many times as before; the current id is cleared iff it was the deleted one |
| Saves.FilterSubseq | app.js:1481 | the survivors of a filter keep their order |
| Saves.FilterCount | app.js:1481 | a filter keeps every copy of a passing entry and none of a failing one |
| Saves.DeleteTwice | app.js:1480-1488 | deleting the same id twice is deleting it once |
| Saves.DeleteUnknownId | app.js:1481 | deleting an unknown id leaves the list as it was |
| Search.Visible | app.js:1170-1183 | every entry is visible for an empty trimmed query; otherwise exactly those whose `ru en` text contains the query |
| Search.CountVisible | app.js:1190-1192 | the count is at most the number of entries, zero iff none is visible, full iff all are |
| Search.ApplySearchFilter | app.js:1169-1196 | every rendered entry gets its visibility; for a non-empty query the logged count is the number of entries left visible; a blank query shows every entry and logs nothing |
| Search.CountTrueVisible | app.js:1190-1192 | the match count is the number of entries flagged visible |
| Search.NarrowingHides | app.js:1182-1183 | an entry visible for a query is visible for every non-empty part of it |
| Search.BlankQueryShowsAll | app.js:1170-1174 | a whitespace-only query shows every entry |
| Palace.LoadRoot | app.js:636 | the typed root, else the config's, else "./", sanitized; it always ends in a slash |
| Palace.MakeAnchors | app.js:649-653 | each record gets the id of its position among the kept records and the shared root; the keys the ids hash are pairwise distinct when the texts hold no "␟" |
| Palace.LoadDataset | app.js:629-695 | nothing is loaded iff no row is usable; otherwise the state holds the text, root, saved id, the signature of the records, their anchors, progress kept as it is when its signature matches and emptied otherwise, and the layout dealt from those anchors |
| Palace.ReloadKeepsProgress | app.js:637-656 | reloading the same text keeps what was studied since the last load |
| Palace.LoadProgressIff | app.js:656 | non-empty progress survives a load exactly when it belongs to the loaded signature, and a mismatch empties both the seen and heard sets |
| Palace.RootDoesNotChangeIdentity | app.js:636-653 | the asset root changes neither the signature nor the anchor ids |
| Palace.AnchorKeysDistinct | app.js:649-653 | anchors of one load hash different keys when their texts hold no "␟" |
| Palace.LoadDealsAllAnchors | app.js:649-658 | with distinct rooms, the rooms of a fresh load hold exactly its anchors |

## Left out

- The DOM and A-Frame scene: room shells, decor, mini map, room buttons, entity building,
  and the metric positions of anchors (floating point). Only the grid indices are modelled.
- `ensureAsset` and the asset registry: they act on the DOM asset manager.
- `decodeHTMLEntities` uses a textarea. It is the parameter `decode`.
- `toLowerCase` is the parameter `lower`. Unicode case mapping is not modelled.
- `Math.random` is the parameter `pick`. No distribution is claimed.
- `Date.now()` readings are inputs.
- I/O: `fetchConfig`, `readFileText`, and the local-storage functions (`persistProgress`,
  `loadStoredProgress`, `loadSavedPalaces`, `persistSavedPalaces`).
- The audio queue (`queueRoomAudio`, `playSoundOnce`, `playAnchorAudio`): asynchronous and
  timer-driven.
- Status log, toasts, reveal toggling, highlighting and panel colours: presentation only.
- The label, the name autofill of `loadDataset` and the autofill flag of `saveCurrentPalace`:
  UI state.
- Rooms.GetRoomCapacity: config values are integers here. Non-number and fractional `roomCap`
  entries are not modelled.
- Slots.ResolveGrid: placement values are integers here. Fractional or non-number
  fields of a room grid or config placement are not modelled.
- Slots.SlotOf: requires at least one column and one row. With zero or negative values the
  source divides by zero or a negative number, and that is not modelled.
- Palace.LoadRoot: a missing asset root and an empty one are both the empty string, since
  `||` treats them alike.
- Palace.LoadDataset: a failed load returns nothing. The caller keeps its state, as the source
  does by returning `false` before any write.
- Search.ApplySearchFilter: `items` are the rendered entries of `state.anchorEntries`;
  entries without an entity (`!entry?.entity`) are not modelled.
- The hash: the anchor id and the signature can collide like any 32-bit hash. The model
  proves only that the hashed keys are distinct, not the hashes.

=== FILE: arith.dfy ===
/** Facts about Euclidean division on naturals that the numeral, pagination and room
    assignment proofs share. */
module Arith {

  /** Quotient and remainder are determined by the equation `n == q * d + r`. */
  lemma DivUnique(n: nat, d: nat, q: nat, r: nat)
    requires 1 <= d && r < d && n == q * d + r
    ensures n / d == q && n % d == r
  {
    var q', r' := n / d, n % d;
    assert n == q' * d + r' && r' < d;
    if q' < q {
      MulGap(q', q - q', d);
      assert false;
    } else if q' > q {
      MulGap(q, q' - q, d);
      assert false;
    }
  }

  lemma MulGap(a: nat, k: nat, d: nat)
    requires 1 <= k
    ensures (a + k) * d >= a * d + d
  {
    assert (a + k) * d == a * d + k * d;
    assert k * d >= d;
  }

  /** Quotient and remainder of a successor. */
  lemma DivModSucc(n: nat, d: nat)
    requires 1 <= d
    ensures n % d + 1 < d ==> (n + 1) / d == n / d && (n + 1) % d == n % d + 1
    ensures n % d + 1 == d ==> (n + 1) / d == n / d + 1 && (n + 1) % d == 0
  {
    if n % d + 1 < d {
      DivUnique(n + 1, d, n / d, n % d + 1);
    } else {
      assert n + 1 == (n / d + 1) * d + 0;
      DivUnique(n + 1, d, n / d + 1, 0);
    }
  }
}

=== FILE: assets.dfy ===
/** Asset paths in app.js: the asset root a dataset is loaded with (`sanitizeAssetRoot`) and
    the URL an image or audio reference resolves to (`buildAssetUrl`). */
module Assets {
  import opened Wrappers
  import opened JsString

  /** "./" */
  const CURRENT_DIR: Str := [DOT, SLASH]
  /** "http://" */
  const HTTP_SCHEME: Str := [0x68, 0x74, 0x74, 0x70, 0x3A, 0x2F, 0x2F]
  /** "https://" */
  const HTTPS_SCHEME: Str := [0x68, 0x74, 0x74, 0x70, 0x73, 0x3A, 0x2F, 0x2F]
  /** "data:" */
  const DATA_SCHEME: Str := [0x64, 0x61, 0x74, 0x61, 0x3A]

  predicate EndsWithSlash(s: Str) {
    |s| > 0 && s[|s| - 1] == SLASH
  }

  /** `sanitizeAssetRoot(input)`: "./" when the input is empty, otherwise the input followed
      by a slash unless it already ends in one. So the result always ends in a slash, and
      a non-empty input is the result less at most that one added slash. */
  function SanitizeAssetRoot(input: Str): (r: Str)
    ensures EndsWithSlash(r)
    ensures input == [] ==> r == CURRENT_DIR
    ensures input != [] ==> |input| <= |r| <= |input| + 1 && r[..|input|] == input
  {
    if input == [] then CURRENT_DIR
    else if !EndsWithSlash(input) then input + [SLASH]
    else input
  }

  /** The sanitized root is the shortest extension of a non-empty input that ends in a slash:
      it adds a slash exactly when the input lacks one. */
  lemma SanitizeAddsSlashIffMissing(input: Str)
    requires input != []
    ensures SanitizeAssetRoot(input) == input <==> EndsWithSlash(input)
    ensures |SanitizeAssetRoot(input)| == |input| + 1 <==> !EndsWithSlash(input)
  {
  }

  /** The roots `sanitizeAssetRoot` leaves alone are exactly the non-empty ones ending in a
      slash, so sanitizing twice is sanitizing once. */
  lemma SanitizeFixedPoints(input: Str)
    ensures SanitizeAssetRoot(input) == input <==> EndsWithSlash(input)
    ensures SanitizeAssetRoot(SanitizeAssetRoot(input)) == SanitizeAssetRoot(input)
  {
  }

  /** `/^https?:\/\//i` (the scheme compared without regard to ASCII case) or the
      case-sensitive prefix "data:". */
  predicate IsAbsolute(path: Str) {
    KeywordAt(path, 0, HTTP_SCHEME) || KeywordAt(path, 0, HTTPS_SCHEME)
    || (|DATA_SCHEME| <= |path| && path[..|DATA_SCHEME|] == DATA_SCHEME)
  }

  /** `buildAssetUrl(path, assetRoot)`: nothing for a missing or empty path; an absolute
      path as it is; any other path behind the root (a missing or empty root adds nothing). */
  function BuildAssetUrl(path: Option<Str>, root: Option<Str>): (r: Option<Str>)
    ensures r.None? <==> path.None? || path.value == []
    ensures r.Some? ==> |path.value| <= |r.value| && r.value[|r.value| - |path.value|..] == path.value
  {
    if path.None? || path.value == [] then None
    else if IsAbsolute(path.value) then path
    else Some(root.OrElse([]) + path.value)
  }

  /** An absolute path resolves to itself whatever the root. */
  lemma AbsoluteIgnoresRoot(path: Str, root: Option<Str>, root': Option<Str>)
    requires path != [] && IsAbsolute(path)
    ensures BuildAssetUrl(Some(path), root) == Some(path)
    ensures BuildAssetUrl(Some(path), root) == BuildAssetUrl(Some(path), root')
  {
  }

  /** A relative path resolves to the root followed by the path, so stripping the root gives
      the path back. */
  lemma RelativeBehindRoot(path: Str, root: Str)
    requires path != [] && !IsAbsolute(path)
    ensures BuildAssetUrl(Some(path), Some(root)).value[..|root|] == root
    ensures BuildAssetUrl(Some(path), Some(root)).value[|root|..] == path
  {
  }

  /** Under a sanitized root, a relative path lands in the root's directory: a slash sits
      right before the path. */
  lemma SanitizedRootSeparates(path: Str, input: Str)
    requires path != [] && !IsAbsolute(path)
    ensures var url := BuildAssetUrl(Some(path), Some(SanitizeAssetRoot(input))).value;
            |url| > |path| && url[|url| - |path| - 1] == SLASH
  {
    var root := SanitizeAssetRoot(input);
    var url := root + path;
    assert url[|url| - |path| - 1] == root[|root| - 1];
  }

  /** The scheme test ignores ASCII case: "HTTP://" and "HtTpS://" count as absolute. */
  lemma SchemeIgnoresCase(path: Str, folded: Str)
    requires |path| == |folded| && forall i :: 0 <= i < |path| ==> FoldAscii(path[i]) == FoldAscii(folded[i])
    ensures KeywordAt(path, 0, HTTP_SCHEME) <==> KeywordAt(folded, 0, HTTP_SCHEME)
    ensures KeywordAt(path, 0, HTTPS_SCHEME) <==> KeywordAt(folded, 0, HTTPS_SCHEME)
  {
  }
}

=== FILE: extract.dfy ===
/** The two reference scanners of app.js (`extractImageSrc`, `extractAudioSrc`): each applies a
    regular expression, takes the first (leftmost) match and decodes HTML entities in its
    captured group. The entity decoder needs the DOM, so it is a parameter here. */
module Extract {
  import opened Wrappers
  import opened JsString

  const EQUALS: CodeUnit := 0x3D
  const DOUBLE_QUOTE: CodeUnit := 0x22
  const SINGLE_QUOTE: CodeUnit := 0x27
  const RIGHT_BRACKET: CodeUnit := 0x5D

  /** "src" */
  const SRC: Str := [0x73, 0x72, 0x63]
  /** "[sound:" */
  const SOUND_TAG: Str := [0x5B, 0x73, 0x6F, 0x75, 0x6E, 0x64, 0x3A]

  predicate IsQuote(c: CodeUnit) {
    c == DOUBLE_QUOTE || c == SINGLE_QUOTE
  }

  predicate NotQuote(c: CodeUnit) {
    !IsQuote(c)
  }

  predicate NotRightBracket(c: CodeUnit) {
    c != RIGHT_BRACKET
  }

  /** Length of the longest run starting at `p` whose code units satisfy `inRun`: what a
      greedy `x*` consumes. */
  function RunLength(s: Str, p: nat, inRun: CodeUnit -> bool): (n: nat)
    requires p <= |s|
    ensures p + n <= |s|
    ensures AllIn(s, p, p + n, inRun)
    ensures p + n == |s| || !inRun(s[p + n])
    decreases |s| - p
  {
    if p < |s| && inRun(s[p]) then 1 + RunLength(s, p + 1, inRun) else 0
  }

  // ---------------------------------------------------------------------------
  // /src\s*=\s*["']([^"']+)["']/i

  /** The match of the image pattern that starts exactly at offset `p`, as its captured group.
      Each greedy run is followed by a code unit outside the run's class, so backtracking can
      never shorten a run: the maximal runs are the only candidates. */
  function ImageMatchAt(s: Str, p: nat): Option<Str> {
    if !KeywordAt(s, p, SRC) then None else MatchEquals(s, p + 3)
  }

  /** `\s*=` from offset `i`, then the rest of the pattern. */
  function MatchEquals(s: Str, i: nat): Option<Str>
    requires i <= |s|
  {
    var eq := i + RunLength(s, i, IsWhitespace);
    if eq >= |s| || s[eq] != EQUALS then None else MatchOpenQuote(s, eq + 1)
  }

  /** `\s*["']` from offset `j`, then the rest of the pattern. */
  function MatchOpenQuote(s: Str, j: nat): Option<Str>
    requires j <= |s|
  {
    var open := j + RunLength(s, j, IsWhitespace);
    if open >= |s| || !IsQuote(s[open]) then None else MatchQuoted(s, open + 1)
  }

  /** `([^"']+)["']` from offset `k`. */
  function MatchQuoted(s: Str, k: nat): Option<Str>
    requires k <= |s|
  {
    var close := k + RunLength(s, k, NotQuote);
    if close == k || close >= |s| then None else Some(s[k..close])
  }

  /** Every offset in `i..j` satisfies `inRun`. */
  predicate AllIn(s: Str, i: nat, j: nat, inRun: CodeUnit -> bool)
    requires i <= j <= |s|
  {
    forall k :: i <= k < j ==> inRun(s[k])
  }

  /** The pattern read declaratively, piece by piece: `src` (any case), `a` blanks, `=`,
      `b` blanks, a quote, the non-empty quote-free capture, a quote. */
  predicate ImageShape(s: Str, p: nat, a: nat, b: nat, capture: Str) {
    KeywordAt(s, p, SRC) && EqualsShape(s, p + 3, a, b, capture)
  }

  predicate EqualsShape(s: Str, i: nat, a: nat, b: nat, capture: Str) {
    i + a < |s| && AllIn(s, i, i + a, IsWhitespace) && s[i + a] == EQUALS
    && OpenQuoteShape(s, i + a + 1, b, capture)
  }

  predicate OpenQuoteShape(s: Str, j: nat, b: nat, capture: Str) {
    j + b < |s| && AllIn(s, j, j + b, IsWhitespace) && IsQuote(s[j + b])
    && QuotedShape(s, j + b + 1, capture)
  }

  predicate QuotedShape(s: Str, k: nat, capture: Str) {
    var close := k + |capture|;
    close < |s| && |capture| >= 1 && AllIn(s, k, close, NotQuote) && IsQuote(s[close])
    && capture == s[k..close]
  }

  lemma QuotedShapeIsMatch(s: Str, k: nat, capture: Str)
    requires QuotedShape(s, k, capture)
    ensures MatchQuoted(s, k) == Some(capture)
  {
    ForcedRun(s, k, |capture|, NotQuote);
  }

  lemma OpenQuoteShapeIsMatch(s: Str, j: nat, b: nat, capture: Str)
    requires OpenQuoteShape(s, j, b, capture)
    ensures MatchOpenQuote(s, j) == Some(capture)
  {
    ForcedRun(s, j, b, IsWhitespace);
    QuotedShapeIsMatch(s, j + b + 1, capture);
  }

  lemma EqualsShapeIsMatch(s: Str, i: nat, a: nat, b: nat, capture: Str)
    requires EqualsShape(s, i, a, b, capture)
    ensures MatchEquals(s, i) == Some(capture)
  {
    ForcedRun(s, i, a, IsWhitespace);
    OpenQuoteShapeIsMatch(s, i + a + 1, b, capture);
  }

  /** Every way the image pattern can match at `p` is found by the scanner, with the same
      capture: the match at an offset is unique. */
  lemma ImageShapeIsMatch(s: Str, p: nat, a: nat, b: nat, capture: Str)
    requires ImageShape(s, p, a, b, capture)
    ensures ImageMatchAt(s, p) == Some(capture)
  {
    EqualsShapeIsMatch(s, p + 3, a, b, capture);
  }

  lemma QuotedMatchIsShape(s: Str, k: nat)
    requires k <= |s| && MatchQuoted(s, k).Some?
    ensures QuotedShape(s, k, MatchQuoted(s, k).value)
  {
  }

  lemma OpenQuoteMatchIsShape(s: Str, j: nat)
    requires j <= |s| && MatchOpenQuote(s, j).Some?
    ensures OpenQuoteShape(s, j, RunLength(s, j, IsWhitespace), MatchOpenQuote(s, j).value)
  {
    QuotedMatchIsShape(s, j + RunLength(s, j, IsWhitespace) + 1);
  }

  lemma EqualsMatchIsShape(s: Str, i: nat)
    requires i <= |s| && MatchEquals(s, i).Some?
    ensures EqualsShape(s, i, RunLength(s, i, IsWhitespace),
                        RunLength(s, i + RunLength(s, i, IsWhitespace) + 1, IsWhitespace),
                        MatchEquals(s, i).value)
  {
    OpenQuoteMatchIsShape(s, i + RunLength(s, i, IsWhitespace) + 1);
  }

  /** Whatever the scanner finds at `p` is a match of the image pattern. */
  lemma ImageMatchIsShape(s: Str, p: nat)
    requires ImageMatchAt(s, p).Some?
    ensures ImageShape(s, p, RunLength(s, p + 3, IsWhitespace),
                       RunLength(s, p + 3 + RunLength(s, p + 3, IsWhitespace) + 1, IsWhitespace),
                       ImageMatchAt(s, p).value)
  {
    EqualsMatchIsShape(s, p + 3);
  }

  /** A run of length `n` that all satisfies `inRun` and is followed by something outside the
      class is the greedy run. */
  lemma {:induction false} ForcedRun(s: Str, p: nat, n: nat, inRun: CodeUnit -> bool)
    requires p + n < |s| && !inRun(s[p + n])
    requires AllIn(s, p, p + n, inRun)
    ensures RunLength(s, p, inRun) == n
    decreases n
  {
    if n > 0 {
      ForcedRun(s, p + 1, n - 1, inRun);
    }
  }

  // ---------------------------------------------------------------------------
  // /\[sound:([^\]]+)\]/i

  /** The match of the audio pattern that starts exactly at offset `p`, as its captured group. */
  function AudioMatchAt(s: Str, p: nat): Option<Str> {
    if !KeywordAt(s, p, SOUND_TAG) then None
    else
      var start := p + |SOUND_TAG|;
      var close := start + RunLength(s, start, NotRightBracket);
      if close == start || close >= |s| then None
      else Some(s[start..close])
  }

  /** The pattern read declaratively: `[sound:` (any case), a non-empty capture without `]`,
      then `]`. */
  predicate AudioShape(s: Str, p: nat, capture: Str) {
    var start := p + |SOUND_TAG|;
    var close := start + |capture|;
    && KeywordAt(s, p, SOUND_TAG)
    && close < |s|
    && |capture| >= 1 && AllIn(s, start, close, NotRightBracket)
    && s[close] == RIGHT_BRACKET
    && capture == s[start..close]
  }

  /** The scanner finds a match at `p` exactly when the pattern matches there, and the
      capture is the only one possible. */
  lemma AudioMatchAtIsPattern(s: Str, p: nat, capture: Str)
    ensures AudioMatchAt(s, p) == Some(capture) <==> AudioShape(s, p, capture)
  {
    if AudioShape(s, p, capture) {
      ForcedRun(s, p + |SOUND_TAG|, |capture|, NotRightBracket);
    }
  }

  // ---------------------------------------------------------------------------
  // leftmost match

  /** The least offset in `from..limit` at which `hit` holds: a left-to-right scan. */
  function FirstHit(hit: nat -> bool, from: nat, limit: nat): (r: Option<nat>)
    ensures r.Some? ==> from <= r.value <= limit && hit(r.value)
    ensures r.Some? ==> forall q :: from <= q < r.value ==> !hit(q)
    ensures r.None? ==> forall q :: from <= q <= limit ==> !hit(q)
    decreases limit + 1 - from
  {
    if from > limit then None
    else if hit(from) then Some(from)
    else FirstHit(hit, from + 1, limit)
  }

  /** The first hit is the hit with none before it. */
  lemma FirstHitIs(hit: nat -> bool, from: nat, limit: nat, p: nat)
    requires from <= p <= limit && hit(p)
    requires forall q :: from <= q < p ==> !hit(q)
    ensures FirstHit(hit, from, limit) == Some(p)
  {
  }

  /** The offsets at which the image pattern matches. */
  function ImageHits(s: Str): nat -> bool {
    (p: nat) => ImageMatchAt(s, p).Some?
  }

  /** The offsets at which the audio pattern matches. */
  function AudioHits(s: Str): nat -> bool {
    (p: nat) => AudioMatchAt(s, p).Some?
  }

  lemma HitsMeaning(s: Str)
    ensures forall p: nat :: ImageHits(s)(p) == ImageMatchAt(s, p).Some?
    ensures forall p: nat :: AudioHits(s)(p) == AudioMatchAt(s, p).Some?
  {
  }

  /** Neither pattern can start past the end of the text. */
  lemma NoMatchPastEnd(s: Str)
    ensures forall p :: p > |s| ==> ImageMatchAt(s, p).None? && AudioMatchAt(s, p).None?
  {
  }

  /** `extractImageSrc`: nothing for an empty snippet, else the decoded capture of the
      leftmost match, or nothing when the pattern matches nowhere. */
  function ExtractImageSrc(snippet: Str, decode: Str -> Str): (r: Option<Str>)
    ensures r.Some? ==> exists p :: ImageMatchAt(snippet, p).Some? && r.value == decode(ImageMatchAt(snippet, p).value)
    ensures r.None? ==> forall p :: ImageMatchAt(snippet, p).None?
  {
    NoMatchPastEnd(snippet);
    HitsMeaning(snippet);
    if snippet == [] then None
    else
      match FirstHit(ImageHits(snippet), 0, |snippet|)
      case Some(p) => Some(decode(ImageMatchAt(snippet, p).value))
      case None => None
  }

  /** `extractAudioSrc`: nothing for an empty tag, else the decoded capture of the leftmost
      match, or nothing when the pattern matches nowhere. */
  function ExtractAudioSrc(tag: Str, decode: Str -> Str): (r: Option<Str>)
    ensures r.Some? ==> exists p :: AudioMatchAt(tag, p).Some? && r.value == decode(AudioMatchAt(tag, p).value)
    ensures r.None? ==> forall p :: AudioMatchAt(tag, p).None?
  {
    NoMatchPastEnd(tag);
    HitsMeaning(tag);
    if tag == [] then None
    else
      match FirstHit(AudioHits(tag), 0, |tag|)
      case Some(p) => Some(decode(AudioMatchAt(tag, p).value))
      case None => None
  }

  /** The leftmost match wins: when the pattern matches at `p` and nowhere before, the
      extracted reference is the decoded capture at `p`. */
  lemma ExtractAudioLeftmost(tag: Str, p: nat, capture: Str, decode: Str -> Str)
    requires AudioShape(tag, p, capture)
    requires forall q: nat :: q < p ==> AudioMatchAt(tag, q).None?
    ensures ExtractAudioSrc(tag, decode) == Some(decode(capture))
  {
    AudioMatchAtIsPattern(tag, p, capture);
    assert tag != [];
    HitsMeaning(tag);
    NoMatchPastEnd(tag);
    FirstHitIs(AudioHits(tag), 0, |tag|, p);
  }

  /** The leftmost match wins for images too. */
  lemma ExtractImageLeftmost(snippet: Str, p: nat, a: nat, b: nat, capture: Str, decode: Str -> Str)
    requires ImageShape(snippet, p, a, b, capture)
    requires forall q: nat :: q < p ==> ImageMatchAt(snippet, q).None?
    ensures ExtractImageSrc(snippet, decode) == Some(decode(capture))
  {
    ImageShapeIsMatch(snippet, p, a, b, capture);
    assert snippet != [];
    HitsMeaning(snippet);
    NoMatchPastEnd(snippet);
    FirstHitIs(ImageHits(snippet), 0, |snippet|, p);
  }

  /** A plain `[sound:NAME]` tag yields the decoded NAME. */
  lemma SoundTagRoundTrip(name: Str, decode: Str -> Str)
    requires |name| >= 1 && RIGHT_BRACKET !in name
    ensures ExtractAudioSrc(SOUND_TAG + name + [RIGHT_BRACKET], decode) == Some(decode(name))
  {
    var tag := SOUND_TAG + name + [RIGHT_BRACKET];
    assert tag[|SOUND_TAG|..|SOUND_TAG| + |name|] == name;
    assert forall k :: 0 <= k < |name| ==> tag[|SOUND_TAG| + k] == name[k];
    assert AudioShape(tag, 0, name);
    ExtractAudioLeftmost(tag, 0, name, decode);
  }

  /** A plain `src="URL"` attribute yields the decoded URL. */
  lemma SrcAttributeRoundTrip(url: Str, decode: Str -> Str)
    requires |url| >= 1 && DOUBLE_QUOTE !in url && SINGLE_QUOTE !in url
    ensures ExtractImageSrc(SRC + [EQUALS, DOUBLE_QUOTE] + url + [DOUBLE_QUOTE], decode) == Some(decode(url))
  {
    var snippet := SRC + [EQUALS, DOUBLE_QUOTE] + url + [DOUBLE_QUOTE];
    assert snippet[5..5 + |url|] == url;
    assert forall k :: 0 <= k < |url| ==> snippet[5 + k] == url[k];
    assert ImageShape(snippet, 0, 0, 0, url);
    ExtractImageLeftmost(snippet, 0, 0, 0, url, decode);
  }
}

=== FILE: fingerprint.dfy ===
/** The fingerprints of app.js: `hashString`, a 31·h + c rolling hash over UTF-16 code units
    wrapped to signed 32 bits and rendered as base 36; the anchor ids built from it
    (`createAnchorId`); and the dataset signature (`createDatasetSignature`). */
module Fingerprint {
  import opened Wrappers
  import opened JsString
  import opened Radix
  import opened Tsv

  const TWO_31: int := 0x8000_0000
  const TWO_32: int := 0x1_0000_0000

  /** "␟", the separator between the fields of one composite key. */
  const UNIT_SEP: CodeUnit := 0x241F
  /** "␞", the separator between the rows of the dataset signature source. */
  const RECORD_SEP: CodeUnit := 0x241E
  /** "anchor-" */
  const ANCHOR_PREFIX: Str := [0x61, 0x6E, 0x63, 0x68, 0x6F, 0x72, 0x2D]

  // ---------------------------------------------------------------------------
  // 32-bit arithmetic

  /** ECMAScript ToInt32: the signed 32-bit integer congruent to `x` modulo 2^32. */
  function ToInt32(x: int): (r: int)
    ensures -TWO_31 <= r < TWO_31
    ensures (x - r) % TWO_32 == 0
    ensures -TWO_31 <= x < TWO_31 ==> r == x
  {
    var m := x % TWO_32;
    if m >= TWO_31 then m - TWO_32 else m
  }

  /** Numbers congruent modulo 2^32 have the same ToInt32. */
  lemma ToInt32Congruent(x: int, y: int, q: int)
    requires x - y == q * TWO_32
    ensures ToInt32(x) == ToInt32(y)
  {
    var rx, ry := ToInt32(x), ToInt32(y);
    var a, b := (x - rx) / TWO_32, (y - ry) / TWO_32;
    assert x - rx == a * TWO_32;
    assert y - ry == b * TWO_32;
    assert rx - ry == (q - a + b) * TWO_32;
  }

  // ---------------------------------------------------------------------------
  // hashString

  /** The unbounded polynomial hash: the sum of c_i · 31^(n-1-i) over the code units. */
  function PolyHash(s: Str): int {
    if s == [] then 0 else 31 * PolyHash(s[..|s| - 1]) + s[|s| - 1] as int
  }

  /** One iteration of the loop, operator by operator: `hash << 5` applies ToInt32 to the
      32-bit left shift, `- hash + c` is exact in double arithmetic, and `hash |= 0` applies
      ToInt32 again. */
  function HashStep(h: int, c: CodeUnit): (r: int)
    requires -TWO_31 <= h < TWO_31
    ensures -TWO_31 <= r < TWO_31
  {
    ToInt32(ToInt32(h * 32) - h + c as int)
  }

  /** The value of `hash` after the loop has consumed all of `s`: the polynomial hash
      wrapped to signed 32 bits. */
  function HashCode(s: Str): (r: int)
    ensures -TWO_31 <= r < TWO_31
    ensures r == ToInt32(PolyHash(s))
  {
    if s == [] then 0
    else
      var h := HashCode(s[..|s| - 1]);
      HashStepWraps(h, PolyHash(s[..|s| - 1]), s[|s| - 1]);
      HashStep(h, s[|s| - 1])
  }

  /** A step on the wrapped hash of a prefix is the wrapped polynomial step. */
  lemma HashStepWraps(h: int, p: int, c: CodeUnit)
    requires -TWO_31 <= h < TWO_31 && h == ToInt32(p)
    ensures HashStep(h, c) == ToInt32(31 * p + c as int)
  {
    var shifted := ToInt32(h * 32);
    var a := (h * 32 - shifted) / TWO_32;
    assert h * 32 - shifted == a * TWO_32;
    var b := (p - h) / TWO_32;
    assert p - h == b * TWO_32;
    assert (31 * p + c as int) - (shifted - h + c as int) == (a + 31 * b) * TWO_32;
    ToInt32Congruent(31 * p + c as int, shifted - h + c as int, a + 31 * b);
  }

  /** `Math.abs(hash)`. */
  function Abs(x: int): (r: nat)
    ensures r == x || r == -x
  {
    if x < 0 then -x else x
  }

  /** `hashString(input)`: the base-36 numeral of the absolute wrapped hash. It is never
      empty, is written as `toString(36)` writes numbers, and denotes a value in [0, 2^31]
      that is the magnitude of the wrapped polynomial hash. */
  function HashString(input: Str): (r: Str)
    ensures Canonical(r, 36)
    ensures Value(r, 36) <= TWO_31
    ensures Value(r, 36) == Abs(ToInt32(PolyHash(input)))
  {
    var n := Abs(HashCode(input));
    ValueOfToRadix(n, 36);
    ToRadix(n, 36)
  }

  /** Two strings have the same `hashString` exactly when their polynomial hashes have the
      same wrapped magnitude. */
  lemma HashStringEqual(s: Str, t: Str)
    ensures HashString(s) == HashString(t) <==>
            Abs(ToInt32(PolyHash(s))) == Abs(ToInt32(PolyHash(t)))
  {
    if Abs(ToInt32(PolyHash(s))) == Abs(ToInt32(PolyHash(t))) {
      ToRadixOfValue(HashString(s), 36);
      ToRadixOfValue(HashString(t), 36);
    }
  }

  // ---------------------------------------------------------------------------
  // createAnchorId

  /** The composite `${ru}␟${en}␟${index}` that an anchor id hashes. */
  function AnchorKey(ru: Str, en: Str, index: nat): Str {
    Join([ru, en, ToRadix(index, 10)], UNIT_SEP)
  }

  /** `createAnchorId(record, index)`: "anchor-" followed by the base-36 hash of the key. */
  function AnchorId(ru: Str, en: Str, index: nat): (r: Str)
    ensures |r| > |ANCHOR_PREFIX| && r[..|ANCHOR_PREFIX|] == ANCHOR_PREFIX
    ensures r[|ANCHOR_PREFIX|..] == HashString(AnchorKey(ru, en, index))
    ensures Canonical(r[|ANCHOR_PREFIX|..], 36)
  {
    ANCHOR_PREFIX + HashString(AnchorKey(ru, en, index))
  }

  /** A numeral holds digits only, never a separator. */
  lemma NumeralHasNoSeparator(s: Str, base: nat, sep: CodeUnit)
    requires AllDigits(s, base) && base <= 36 && DigitValue(sep) == 36
    ensures sep !in s
  {
    forall i | 0 <= i < |s| ensures s[i] != sep {
      assert IsDigit(s[i], base);
    }
  }

  /** The key keeps its parts apart: when neither text holds "␟", equal keys come from the
      same texts and the same position, so the hash is the only source of equal ids. */
  lemma AnchorKeyInjective(ru: Str, en: Str, index: nat, ru': Str, en': Str, index': nat)
    requires UNIT_SEP !in ru && UNIT_SEP !in en && UNIT_SEP !in ru' && UNIT_SEP !in en'
    ensures AnchorKey(ru, en, index) == AnchorKey(ru', en', index') <==>
            ru == ru' && en == en' && index == index'
  {
    if AnchorKey(ru, en, index) == AnchorKey(ru', en', index') {
      var parts := [ru, en, ToRadix(index, 10)];
      var parts' := [ru', en', ToRadix(index', 10)];
      NumeralHasNoSeparator(ToRadix(index, 10), 10, UNIT_SEP);
      NumeralHasNoSeparator(ToRadix(index', 10), 10, UNIT_SEP);
      SplitJoin(parts, UNIT_SEP);
      SplitJoin(parts', UNIT_SEP);
      assert parts == parts';
      ToRadixInjective(index, index', 10);
    }
  }

  // ---------------------------------------------------------------------------
  // createDatasetSignature

  /** What of a record the signature sees: its texts, and its references with a missing
      one read as the empty string (`?? ''`). */
  datatype Content = Content(ru: Str, en: Str, image: Str, audio: Str)

  function ContentOf(r: Record): Content {
    Content(r.ru, r.en, r.imageSrc.OrElse([]), r.audioSrc.OrElse([]))
  }

  function Contents(records: seq<Record>): (cs: seq<Content>)
    ensures |cs| == |records|
    ensures forall i :: 0 <= i < |records| ==> cs[i] == ContentOf(records[i])
  {
    seq(|records|, i requires 0 <= i < |records| => ContentOf(records[i]))
  }

  /** One row of the signature source: `${ru}␟${en}␟${imageSrc ?? ''}␟${audioSrc ?? ''}`. */
  function RowKey(c: Content): Str {
    Join([c.ru, c.en, c.image, c.audio], UNIT_SEP)
  }

  function RowKeys(cs: seq<Content>): (keys: seq<Str>)
    ensures |keys| == |cs|
    ensures forall i :: 0 <= i < |cs| ==> keys[i] == RowKey(cs[i])
  {
    seq(|cs|, i requires 0 <= i < |cs| => RowKey(cs[i]))
  }

  /** The string the signature hashes: the row keys joined with "␞". */
  function SignatureSource(records: seq<Record>): Str {
    Join(RowKeys(Contents(records)), RECORD_SEP)
  }

  /** `createDatasetSignature(records)`. */
  function DatasetSignature(records: seq<Record>): (r: Str)
    ensures Canonical(r, 36) && Value(r, 36) <= TWO_31
  {
    HashString(SignatureSource(records))
  }

  /** The signature sees only the texts and references of the records, in order: line
      indices (and anything else a record might carry) do not enter it. */
  lemma SignatureSeesOnlyContent(a: seq<Record>, b: seq<Record>)
    requires Contents(a) == Contents(b)
    ensures DatasetSignature(a) == DatasetSignature(b)
  {
  }

  /** Moving the records to other lines of the file leaves the signature unchanged. */
  lemma SignatureIgnoresRowIndex(records: seq<Record>, rowIndices: seq<nat>)
    requires |rowIndices| == |records|
    ensures DatasetSignature(records) ==
            DatasetSignature(seq(|records|, i requires 0 <= i < |records| =>
                                   records[i].(rowIndex := rowIndices[i])))
  {
    var moved := seq(|records|, i requires 0 <= i < |records| => records[i].(rowIndex := rowIndices[i]));
    assert Contents(moved) == Contents(records);
    SignatureSeesOnlyContent(records, moved);
  }

  /** A content none of whose fields holds either separator. */
  predicate SeparatorFree(c: Content) {
    && UNIT_SEP !in c.ru && UNIT_SEP !in c.en && UNIT_SEP !in c.image && UNIT_SEP !in c.audio
    && RECORD_SEP !in c.ru && RECORD_SEP !in c.en && RECORD_SEP !in c.image && RECORD_SEP !in c.audio
  }

  lemma JoinHasNo(parts: seq<Str>, sep: CodeUnit, x: CodeUnit)
    requires x != sep
    requires forall k :: 0 <= k < |parts| ==> x !in parts[k]
    ensures x !in Join(parts, sep)
  {
    if |parts| > 1 {
      JoinHasNo(parts[1..], sep, x);
    }
  }

  /** Without separators in the fields, a row key gives back its content. */
  lemma RowKeyInjective(c: Content, d: Content)
    requires SeparatorFree(c) && SeparatorFree(d)
    requires RowKey(c) == RowKey(d)
    ensures c == d
  {
    SplitJoin([c.ru, c.en, c.image, c.audio], UNIT_SEP);
    SplitJoin([d.ru, d.en, d.image, d.audio], UNIT_SEP);
  }

  /** A row key holds three "␟" and so is never empty. */
  lemma RowKeyNonEmpty(c: Content)
    ensures |RowKey(c)| >= 3
  {
    var tail := Join([c.image, c.audio], UNIT_SEP);
    assert [c.image, c.audio][1..] == [c.audio];
    assert Join([c.audio], UNIT_SEP) == c.audio;
    assert tail == c.image + [UNIT_SEP] + c.audio;
    assert [c.en, c.image, c.audio][1..] == [c.image, c.audio];
    var mid := Join([c.en, c.image, c.audio], UNIT_SEP);
    assert mid == c.en + [UNIT_SEP] + tail;
    assert [c.ru, c.en, c.image, c.audio][1..] == [c.en, c.image, c.audio];
    assert RowKey(c) == c.ru + [UNIT_SEP] + mid;
  }

  /** The signature source is empty exactly for the empty dataset. */
  lemma SourceEmptyIff(records: seq<Record>)
    ensures SignatureSource(records) == [] <==> records == []
  {
    if records != [] {
      var keys := RowKeys(Contents(records));
      RowKeyNonEmpty(Contents(records)[0]);
      assert |Join(keys, RECORD_SEP)| >= |keys[0]|;
    }
  }

  /** Without separators in the fields, two record lists have the same signature source
      exactly when they have the same contents in the same order: distinct datasets differ
      in what is hashed, and any clash of signatures is a clash of the 32-bit hash. */
  lemma SignatureSourceInjective(a: seq<Record>, b: seq<Record>)
    requires forall i :: 0 <= i < |a| ==> SeparatorFree(ContentOf(a[i]))
    requires forall i :: 0 <= i < |b| ==> SeparatorFree(ContentOf(b[i]))
    ensures SignatureSource(a) == SignatureSource(b) <==> Contents(a) == Contents(b)
  {
    var ka, kb := RowKeys(Contents(a)), RowKeys(Contents(b));
    if SignatureSource(a) == SignatureSource(b) {
      SourceEmptyIff(a);
      SourceEmptyIff(b);
      if |a| > 0 && |b| > 0 {
        forall k | 0 <= k < |ka| ensures RECORD_SEP !in ka[k] {
          JoinHasNo([Contents(a)[k].ru, Contents(a)[k].en, Contents(a)[k].image, Contents(a)[k].audio],
                    UNIT_SEP, RECORD_SEP);
        }
        forall k | 0 <= k < |kb| ensures RECORD_SEP !in kb[k] {
          JoinHasNo([Contents(b)[k].ru, Contents(b)[k].en, Contents(b)[k].image, Contents(b)[k].audio],
                    UNIT_SEP, RECORD_SEP);
        }
        SplitJoin(ka, RECORD_SEP);
        SplitJoin(kb, RECORD_SEP);
        assert ka == kb;
        forall i | 0 <= i < |a| ensures Contents(a)[i] == Contents(b)[i] {
          RowKeyInjective(Contents(a)[i], Contents(b)[i]);
        }
      }
    }
  }
}

=== FILE: jsstring.dfy ===
/** JavaScript strings as sequences of UTF-16 code units, with the handful of built-ins
    (`trim`, `split`, `join`, `includes`) that app.js relies on, and the ASCII case folding
    of a `/i` regular expression. */
module JsString {

  /** One UTF-16 code unit, what `charCodeAt` returns. Lone surrogates are allowed. */
  newtype CodeUnit = x: int | 0 <= x < 0x1_0000

  type Str = seq<CodeUnit>

  const TAB: CodeUnit := 0x09
  const LF: CodeUnit := 0x0A
  const CR: CodeUnit := 0x0D
  const SPACE: CodeUnit := 0x20
  const SLASH: CodeUnit := 0x2F
  const DOT: CodeUnit := 0x2E
  const HYPHEN: CodeUnit := 0x2D

  /** ECMAScript WhiteSpace and LineTerminator code points: what `trim` strips and what
      a regular expression's `\s` matches. */
  predicate IsWhitespace(c: CodeUnit) {
    || c == 0x09 || c == 0x0A || c == 0x0B || c == 0x0C || c == 0x0D
    || c == 0x20 || c == 0xA0 || c == 0x1680
    || (0x2000 <= c <= 0x200A)
    || c == 0x2028 || c == 0x2029 || c == 0x202F || c == 0x205F
    || c == 0x3000 || c == 0xFEFF
  }

  predicate AllWhitespace(s: Str) {
    forall i :: 0 <= i < |s| ==> IsWhitespace(s[i])
  }

  /** JavaScript's `||` on strings: the empty string is falsy. */
  function Or(a: Str, b: Str): (r: Str)
    ensures r == [] ==> a == [] && b == []
    ensures a != [] ==> r == a
  {
    if a == [] then b else a
  }

  /** The part of `s` left after removing leading whitespace. */
  function TrimStart(s: Str): (r: Str)
    ensures |r| <= |s| && r == s[|s| - |r|..]
    ensures AllWhitespace(s[..|s| - |r|])
    ensures r == [] || !IsWhitespace(r[0])
  {
    if |s| > 0 && IsWhitespace(s[0]) then TrimStart(s[1..]) else s
  }

  /** The part of `s` left after removing trailing whitespace. */
  function TrimEnd(s: Str): (r: Str)
    ensures |r| <= |s| && r == s[..|r|]
    ensures AllWhitespace(s[|r|..])
    ensures r == [] || !IsWhitespace(r[|r| - 1])
  {
    if |s| > 0 && IsWhitespace(s[|s| - 1]) then
      var r := TrimEnd(s[..|s| - 1]);
      assert s[..|s| - 1][..|r|] == s[..|r|];
      assert s[|r|..] == s[..|s| - 1][|r|..] + [s[|s| - 1]];
      r
    else s
  }

  /** `r` is `s` less a whitespace prefix of length `i` and a whitespace suffix. */
  predicate Stripped(s: Str, i: nat, r: Str) {
    i + |r| <= |s| && r == s[i..i + |r|] && AllWhitespace(s[..i]) && AllWhitespace(s[i + |r|..])
  }

  /** `String.prototype.trim`: the input less whitespace at both ends, and no more. */
  function Trim(s: Str): (r: Str)
    ensures exists i :: Stripped(s, i, r)
    ensures r == [] || (!IsWhitespace(r[0]) && !IsWhitespace(r[|r| - 1]))
  {
    TrimStrips(s);
    TrimEnd(TrimStart(s))
  }

  lemma TrimStrips(s: Str)
    ensures Stripped(s, |s| - |TrimStart(s)|, TrimEnd(TrimStart(s)))
  {
    StripBothEnds(s, TrimStart(s), TrimEnd(TrimStart(s)));
  }

  /** Removing a whitespace prefix and then a whitespace suffix strips both ends. */
  lemma StripBothEnds(s: Str, t: Str, r: Str)
    requires |t| <= |s| && t == s[|s| - |t|..] && AllWhitespace(s[..|s| - |t|])
    requires |r| <= |t| && r == t[..|r|] && AllWhitespace(t[|r|..])
    ensures Stripped(s, |s| - |t|, r)
  {
    var i := |s| - |t|;
    assert s[i + |r|..] == t[|r|..];
  }

  /** `s.trim()` is falsy exactly when `s` consists of whitespace only. */
  lemma TrimEmptyIffBlank(s: Str)
    ensures Trim(s) == [] <==> AllWhitespace(s)
  {
    var t := TrimStart(s);
    if t != [] {
      TrimEndKeepsHead(t);
    }
    if Trim(s) == [] {
      assert s[..|s|] == s;
    }
    if AllWhitespace(s) {
      TrimStartBlank(s);
    }
  }

  lemma TrimEndKeepsHead(t: Str)
    requires t != [] && !IsWhitespace(t[0])
    ensures TrimEnd(t) != []
  {
    if IsWhitespace(t[|t| - 1]) {
      TrimEndKeepsHead(t[..|t| - 1]);
    }
  }

  lemma TrimStartBlank(s: Str)
    requires AllWhitespace(s)
    ensures TrimStart(s) == []
  {
    if |s| > 0 {
      TrimStartBlank(s[1..]);
    }
  }

  /** Trimming twice is trimming once. */
  lemma TrimIdempotent(s: Str)
    ensures Trim(Trim(s)) == Trim(s)
  {
    var r := Trim(s);
    if r != [] {
      assert TrimStart(r) == r;
      assert TrimEnd(r) == r;
    }
  }

  /** `s.split(sep)` for a one-code-unit separator: always at least one piece, and the
      empty string splits into one empty piece. */
  function Split(s: Str, sep: CodeUnit): (parts: seq<Str>)
    ensures |parts| >= 1
    ensures forall k :: 0 <= k < |parts| ==> sep !in parts[k]
  {
    if |s| == 0 then [[]]
    else
      var rest := Split(s[1..], sep);
      if s[0] == sep then [[]] + rest
      else [[s[0]] + rest[0]] + rest[1..]
  }

  /** `parts.join(sep)`; the empty list joins to the empty string. */
  function Join(parts: seq<Str>, sep: CodeUnit): Str {
    if |parts| == 0 then []
    else if |parts| == 1 then parts[0]
    else parts[0] + [sep] + Join(parts[1..], sep)
  }

  /** Splitting loses nothing: joining the pieces back gives the original string. */
  lemma {:induction false} JoinSplit(s: Str, sep: CodeUnit)
    ensures Join(Split(s, sep), sep) == s
  {
    if |s| > 0 {
      var rest := Split(s[1..], sep);
      JoinSplit(s[1..], sep);
      if s[0] == sep {
        assert Split(s, sep)[1..] == rest;
      } else {
        var parts := Split(s, sep);
        if |rest| > 1 {
          assert parts[1..] == rest[1..];
          assert Join(rest, sep) == rest[0] + [sep] + Join(rest[1..], sep);
        }
      }
    }
  }

  /** A string with no separator in it is a single piece. */
  lemma {:induction false} SplitNoSeparator(s: Str, sep: CodeUnit)
    requires sep !in s
    ensures Split(s, sep) == [s]
  {
    if |s| > 0 {
      SplitNoSeparator(s[1..], sep);
      assert [s[0]] + s[1..] == s;
    }
  }

  /** Splitting `a + sep + b` cuts at that separator when `a` holds none. */
  lemma {:induction false} SplitAtFirstSeparator(a: Str, b: Str, sep: CodeUnit)
    requires sep !in a
    ensures Split(a + [sep] + b, sep) == [a] + Split(b, sep)
  {
    var s := a + [sep] + b;
    if |a| == 0 {
      assert s[1..] == b;
    } else {
      assert s[1..] == a[1..] + [sep] + b;
      SplitAtFirstSeparator(a[1..], b, sep);
      assert [a[0]] + a[1..] == a;
    }
  }

  /** Joining pieces that hold no separator can be undone by splitting. */
  lemma {:induction false} SplitJoin(parts: seq<Str>, sep: CodeUnit)
    requires |parts| >= 1
    requires forall k :: 0 <= k < |parts| ==> sep !in parts[k]
    ensures Split(Join(parts, sep), sep) == parts
  {
    if |parts| == 1 {
      SplitNoSeparator(parts[0], sep);
    } else {
      SplitJoin(parts[1..], sep);
      SplitAtFirstSeparator(parts[0], Join(parts[1..], sep), sep);
      assert [parts[0]] + parts[1..] == parts;
    }
  }

  /** The case folding a `/i` regular expression without the `u` flag applies when the pattern
      is plain ASCII: only the letters `A`-`Z` meet their lower-case partners (non-ASCII code
      units whose upper case is ASCII, such as U+017F, are left alone by that rule). */
  function FoldAscii(c: CodeUnit): CodeUnit {
    if 0x41 <= c <= 0x5A then c + 0x20 else c
  }

  /** `s` holds the lower-case ASCII `keyword` at offset `p`, ignoring letter case. */
  predicate KeywordAt(s: Str, p: nat, keyword: Str) {
    p + |keyword| <= |s| && forall k :: 0 <= k < |keyword| ==> FoldAscii(s[p + k]) == keyword[k]
  }

  /** `s.includes(t)`: `t` occurs in `s` at some offset. */
  predicate OccursAt(s: Str, t: Str, i: nat) {
    i + |t| <= |s| && s[i..i + |t|] == t
  }

  /** Scans the offsets of `s` from `from` onwards for an occurrence of `t`. */
  function IncludesFrom(s: Str, t: Str, from: nat): (r: bool)
    ensures r <==> exists i :: from <= i && OccursAt(s, t, i)
    decreases |s| - from
  {
    if from + |t| > |s| then
      assert forall i :: from <= i ==> !OccursAt(s, t, i);
      false
    else if s[from..from + |t|] == t then
      assert OccursAt(s, t, from);
      true
    else
      assert !OccursAt(s, t, from);
      IncludesFrom(s, t, from + 1)
  }

  /** `String.prototype.includes`. */
  function Includes(s: Str, t: Str): (r: bool)
    ensures r <==> exists i :: OccursAt(s, t, i)
  {
    IncludesFrom(s, t, 0)
  }
}

=== FILE: pages.dfy ===
/** Splitting a room's anchors into pages (`paginate`) and keeping a page number in range
    (`clamp`). */
module Pages {
  import opened Arith

  /** The pages laid end to end. */
  function Flatten<T>(pages: seq<seq<T>>): seq<T> {
    if pages == [] then [] else pages[0] + Flatten(pages[1..])
  }

  /** The pages `for (i = 0; i < items.length; i += perPage) pages.push(items.slice(i, i + perPage))`
      builds: as many as needed to hold every item, each non-empty, none longer than
      `perPage`, and all but the last exactly `perPage` long. */
  function Chunks<T>(items: seq<T>, perPage: nat): (pages: seq<seq<T>>)
    requires perPage > 0
    ensures pages == [] <==> items == []
    ensures forall k :: 0 <= k < |pages| ==> 1 <= |pages[k]| <= perPage
    ensures forall k :: 0 <= k < |pages| - 1 ==> |pages[k]| == perPage
    decreases |items|
  {
    if |items| == 0 then []
    else if |items| <= perPage then [items]
    else
      [items[..perPage]] + Chunks(items[perPage..], perPage)
  }

  /** Laying the pages end to end gives back the items. */
  lemma {:induction false} FlattenChunks<T>(items: seq<T>, perPage: nat)
    requires perPage > 0
    ensures Flatten(Chunks(items, perPage)) == items
    decreases |items|
  {
    if |items| == 0 {
    } else if |items| <= perPage {
      assert Flatten([items]) == items + Flatten<T>([]);
    } else {
      var rest := Chunks(items[perPage..], perPage);
      FlattenChunks(items[perPage..], perPage);
      assert ([items[..perPage]] + rest)[1..] == rest;
      assert items[..perPage] + items[perPage..] == items;
    }
  }

  /** The end of page `k`: the next multiple of `perPage`, or the end of the items. */
  function PageEnd(k: nat, perPage: nat, n: nat): nat {
    if (k + 1) * perPage <= n then (k + 1) * perPage else n
  }

  lemma PageEndShift(k: nat, perPage: nat, n: nat)
    requires 1 <= k && perPage <= n
    ensures perPage + (k - 1) * perPage == k * perPage
    ensures perPage + PageEnd(k - 1, perPage, n - perPage) == PageEnd(k, perPage, n)
  {
    assert perPage + (k - 1) * perPage == k * perPage;
    assert perPage + k * perPage == (k + 1) * perPage;
  }

  /** Page `k` holds the items from `k * perPage` up to the next multiple or the end. */
  lemma {:induction false} ChunkContents<T>(items: seq<T>, perPage: nat, k: nat)
    requires perPage > 0 && k < |Chunks(items, perPage)|
    ensures k * perPage < |items|
    ensures Chunks(items, perPage)[k] == items[k * perPage .. PageEnd(k, perPage, |items|)]
    decreases |items|
  {
    if k == 0 {
      assert Chunks(items, perPage)[0] == items[..PageEnd(0, perPage, |items|)];
    } else {
      assert |items| > perPage;
      var tail := items[perPage..];
      assert Chunks(items, perPage)[k] == Chunks(tail, perPage)[k - 1] by {
        assert Chunks(items, perPage) == [items[..perPage]] + Chunks(tail, perPage);
      }
      ChunkContents(tail, perPage, k - 1);
      PageEndShift(k, perPage, |items|);
      SliceOfDrop(items, perPage, (k - 1) * perPage, PageEnd(k - 1, perPage, |tail|));
    }
  }

  lemma SliceOfDrop<T>(s: seq<T>, d: nat, lo: nat, hi: nat)
    requires d <= |s| && lo <= hi <= |s| - d
    ensures s[d..][lo..hi] == s[d + lo..d + hi]
  {
  }

  /** The items are the full pages followed by the last one. */
  lemma {:induction false} ChunksLength<T>(items: seq<T>, perPage: nat)
    requires perPage > 0 && items != []
    ensures var pages := Chunks(items, perPage);
            |items| == (|pages| - 1) * perPage + |pages[|pages| - 1]|
    decreases |items|
  {
    if |items| > perPage {
      var tail := items[perPage..];
      ChunksLength(tail, perPage);
      var pages, rest := Chunks(items, perPage), Chunks(tail, perPage);
      assert pages[|pages| - 1] == rest[|rest| - 1];
      assert (|pages| - 1) * perPage == (|rest| - 1) * perPage + perPage;
    }
  }

  /** `paginate(items, perPage)`: a single page holding everything when `perPage` is not
      positive; otherwise the chunks, or one empty page when there are no items. */
  function Paginate<T>(items: seq<T>, perPage: int): (pages: seq<seq<T>>)
    ensures |pages| >= 1
    ensures perPage > 0 ==> forall k :: 0 <= k < |pages| ==> |pages[k]| <= perPage
    ensures perPage > 0 ==> forall k :: 0 <= k < |pages| - 1 ==> |pages[k]| == perPage
    ensures perPage > 0 && items != [] ==> forall k :: 0 <= k < |pages| ==> pages[k] != []
  {
    if perPage <= 0 then [items]
    else
      var pages := Chunks(items, perPage);
      if |pages| > 0 then pages else [[]]
  }

  /** Paginating loses, duplicates and reorders nothing. */
  lemma FlattenPaginate<T>(items: seq<T>, perPage: int)
    ensures Flatten(Paginate(items, perPage)) == items
  {
    if perPage <= 0 {
      assert Flatten([items]) == items + Flatten<T>([]);
    } else {
      FlattenChunks(items, perPage);
      if items == [] {
        assert Flatten<T>([[]]) == [];
      }
    }
  }

  /** The number of pages: one when `perPage` is not positive or there are no items, else
      the item count divided by `perPage`, rounded up. */
  lemma PageCount<T>(items: seq<T>, perPage: int)
    ensures perPage <= 0 || items == [] ==> |Paginate(items, perPage)| == 1
    ensures perPage > 0 && items != [] ==>
              |Paginate(items, perPage)| == (|items| + perPage - 1) / perPage
  {
    if perPage > 0 && items != [] {
      var pages := Chunks(items, perPage);
      var last := |pages[|pages| - 1]|;
      ChunksLength(items, perPage);
      assert (|pages| - 1) * perPage + perPage == |pages| * perPage;
      DivUnique(|items| + perPage - 1, perPage, |pages|, last - 1);
    }
  }

  /** `clamp(value, min, max)`: `Math.min(Math.max(value, min), max)`. */
  function Clamp(value: int, lo: int, hi: int): (r: int)
    ensures lo <= hi ==> lo <= r <= hi
    ensures lo <= value <= hi ==> r == value
  {
    var raised := if value < lo then lo else value;
    if raised < hi then raised else hi
  }

  /** On a non-empty range the clamped value is the point of the range nearest to the value. */
  lemma ClampNearest(value: int, lo: int, hi: int, y: int)
    requires lo <= y <= hi
    ensures Dist(Clamp(value, lo, hi), value) <= Dist(y, value)
  {
  }

  function Dist(a: int, b: int): nat {
    if a < b then b - a else a - b
  }
}

=== FILE: palace.dfy ===
/** `loadDataset`: the step that ties the pieces together. It parses the text, fixes the asset
    root, fingerprints the dataset, turns the records into anchors, carries over or drops the
    stored progress, and deals the anchors to the rooms. Scene building, the label, the
    name autofill and the status messages are left out. */
module Palace {
  import opened Wrappers
  import opened JsString
  import opened Tsv
  import opened Fingerprint
  import opened Assets
  import opened Radix
  import opened Rooms
  import P = Progress

  /** An entry of `state.rawAnchors`: a record with its id and the root its assets hang from. */
  datatype Anchor = Anchor(record: Record, id: Str, assetRoot: Str)

  /** The part of the app state `loadDataset` writes. */
  datatype App = App(
    datasetSignature: Option<Str>,
    currentTsvText: Option<Str>,
    currentAssetRoot: Option<Str>,
    currentSavedId: Option<Str>,
    rawAnchors: seq<Anchor>,
    progress: P.Progress,
    layout: Layout<Anchor>)

  /** The inputs of one load besides the app state: the text, the asset root typed in (empty
      when there is none), the config's asset root (empty when there is none), the saved
      layout loaded (if any), and what the model takes as given: the entity decoder, the
      room order and capacities of the config, and the shuffle's draws. */
  datatype LoadInput = LoadInput(
    text: Str, assetRoot: Str, configAssetRoot: Str, savedId: Option<Str>,
    decode: Str -> Str, roomOrder: seq<RoomId>, roomCap: Option<map<Str, int>>, pick: nat -> nat)

  /** `assetRoot || state.config.assetRoot || './'`, sanitized. */
  function LoadRoot(assetRoot: Str, configAssetRoot: Str): (root: Str)
    ensures EndsWithSlash(root)
    ensures assetRoot != [] ==> root == SanitizeAssetRoot(assetRoot)
    ensures assetRoot == [] && configAssetRoot != [] ==> root == SanitizeAssetRoot(configAssetRoot)
    ensures assetRoot == [] && configAssetRoot == [] ==> root == CURRENT_DIR
  {
    SanitizeAssetRoot(Or(assetRoot, Or(configAssetRoot, CURRENT_DIR)))
  }

  /** The texts of `r` hold no "␟". */
  predicate NoUnitSep(r: Record) {
    UNIT_SEP !in r.ru && UNIT_SEP !in r.en
  }

  /** `records.map((rec, index) => ...)`: each record with the id of its position among the
      kept records (not its line) and the shared root. The keys the ids hash are pairwise
      distinct when the texts hold no "␟", so equal ids can only come from a hash collision. */
  function MakeAnchors(records: seq<Record>, root: Str): (anchors: seq<Anchor>)
    ensures |anchors| == |records|
    ensures forall i :: 0 <= i < |records| ==>
              anchors[i] == Anchor(records[i], AnchorId(records[i].ru, records[i].en, i), root)
    ensures forall i, j :: 0 <= i < j < |records| && NoUnitSep(records[i]) && NoUnitSep(records[j]) ==>
              AnchorKey(records[i].ru, records[i].en, i) != AnchorKey(records[j].ru, records[j].en, j)
  {
    KeysDistinct(records);
    seq(|records|, i requires 0 <= i < |records| =>
          Anchor(records[i], AnchorId(records[i].ru, records[i].en, i), root))
  }

  lemma KeysDistinct(records: seq<Record>)
    ensures forall i, j :: 0 <= i < j < |records| && NoUnitSep(records[i]) && NoUnitSep(records[j]) ==>
              AnchorKey(records[i].ru, records[i].en, i) != AnchorKey(records[j].ru, records[j].en, j)
  {
    forall i, j | 0 <= i < j < |records| && NoUnitSep(records[i]) && NoUnitSep(records[j])
      ensures AnchorKey(records[i].ru, records[i].en, i) != AnchorKey(records[j].ru, records[j].en, j)
    {
      AnchorKeyInjective(records[i].ru, records[i].en, i, records[j].ru, records[j].en, j);
    }
  }

  /** `loadDataset({ text, assetRoot, savedId })`. A text with no usable row loads nothing
      (`false`; the state stays as it was). Otherwise the new state holds the text, the
      root, the signature of the records, their anchors in record order, the progress
      filtered through the signature, and a fresh room layout of the anchors. */
  function LoadDataset(app: App, input: LoadInput): (r: Option<App>)
    ensures r.None? <==> ParseTsv(input.text, input.decode) == []
    ensures r.Some? ==>
              var records := ParseTsv(input.text, input.decode);
              && r.value.currentTsvText == Some(input.text)
              && r.value.currentSavedId == input.savedId
              && r.value.currentAssetRoot == Some(LoadRoot(input.assetRoot, input.configAssetRoot))
              && r.value.datasetSignature == Some(DatasetSignature(records))
              && r.value.progress.signature == r.value.datasetSignature
              && (app.progress.signature == r.value.datasetSignature ==> r.value.progress == app.progress)
              && (app.progress.signature != r.value.datasetSignature ==>
                    r.value.progress.seen == {} && r.value.progress.heard == {})
              && r.value.rawAnchors == MakeAnchors(records, LoadRoot(input.assetRoot, input.configAssetRoot))
              && r.value.layout == AssignAnchorsToRooms(r.value.rawAnchors, input.roomOrder, input.roomCap,
                                                        input.pick, app.layout.currentPage)
  {
    var records := ParseTsv(input.text, input.decode);
    if records == [] then None
    else
      var root := LoadRoot(input.assetRoot, input.configAssetRoot);
      var signature := DatasetSignature(records);
      var anchors := MakeAnchors(records, root);
      Some(App(Some(signature), Some(input.text), Some(root), input.savedId, anchors,
               P.ApplyStoredProgress(app.progress, signature),
               AssignAnchorsToRooms(anchors, input.roomOrder, input.roomCap, input.pick,
                                    app.layout.currentPage)))
  }

  /** Reloading the same dataset keeps what was studied since the last load: the signature
      is never empty, so the stored progress matches and is kept as it is, whatever root,
      saved id or room settings the reload uses. */
  lemma ReloadKeepsProgress(app: App, input: LoadInput, studied: P.Progress, again: LoadInput)
    requires ParseTsv(input.text, input.decode) != []
    requires again.text == input.text && again.decode == input.decode
    ensures var loaded := LoadDataset(app, input).value;
            var reloaded := LoadDataset(loaded.(progress := studied), again);
            studied.signature == loaded.datasetSignature ==> reloaded.Some? && reloaded.value.progress == studied
  {
  }

  /** Loading a dataset whose signature differs from the one the progress belongs to starts
      the progress afresh, with both sets empty; loading one whose signature matches keeps it. */
  lemma LoadProgressIff(app: App, input: LoadInput)
    requires ParseTsv(input.text, input.decode) != []
    requires app.progress.seen != {} || app.progress.heard != {}
    ensures LoadDataset(app, input).value.progress == app.progress <==>
            app.progress.signature == Some(DatasetSignature(ParseTsv(input.text, input.decode)))
    ensures app.progress.signature != Some(DatasetSignature(ParseTsv(input.text, input.decode))) ==>
              LoadDataset(app, input).value.progress.seen == {} &&
              LoadDataset(app, input).value.progress.heard == {}
  {
    P.ProgressKeptIff(app.progress, DatasetSignature(ParseTsv(input.text, input.decode)));
  }

  /** The asset root never touches the identity of a dataset: loading the same text under
      two roots yields the same signature and the same anchor ids. */
  lemma RootDoesNotChangeIdentity(app: App, input: LoadInput, assetRoot: Str, configAssetRoot: Str)
    requires ParseTsv(input.text, input.decode) != []
    ensures var a := LoadDataset(app, input).value;
            var b := LoadDataset(app, input.(assetRoot := assetRoot, configAssetRoot := configAssetRoot)).value;
            && a.datasetSignature == b.datasetSignature
            && |a.rawAnchors| == |b.rawAnchors|
            && forall i :: 0 <= i < |a.rawAnchors| ==> a.rawAnchors[i].id == b.rawAnchors[i].id
  {
  }

  /** The keys that anchor ids hash differ between any two anchors of a load whose texts hold
      no "␟": equal ids can only come from a hash collision. */
  lemma AnchorKeysDistinct(input: LoadInput, i: nat, j: nat)
    requires var records := ParseTsv(input.text, input.decode);
             i < j < |records| &&
             UNIT_SEP !in records[i].ru && UNIT_SEP !in records[i].en &&
             UNIT_SEP !in records[j].ru && UNIT_SEP !in records[j].en
    ensures var records := ParseTsv(input.text, input.decode);
            AnchorKey(records[i].ru, records[i].en, i) != AnchorKey(records[j].ru, records[j].en, j)
  {
    var records := ParseTsv(input.text, input.decode);
    AnchorKeyInjective(records[i].ru, records[i].en, i, records[j].ru, records[j].en, j);
  }

  /** With distinct rooms configured, the rooms of a fresh load hold exactly the loaded
      anchors, none lost and none twice. */
  lemma LoadDealsAllAnchors(app: App, input: LoadInput)
    requires ParseTsv(input.text, input.decode) != [] && |input.roomOrder| > 0 && Distinct(input.roomOrder)
    ensures var a := LoadDataset(app, input).value;
            Pooled(a.layout.assignments, input.roomOrder) == multiset(a.rawAnchors)
  {
    var a := LoadDataset(app, input).value;
    AssignmentDistribution(a.rawAnchors, input.roomOrder, input.roomCap, input.pick,
                           app.layout.currentPage, 0);
  }
}

=== FILE: progress.dfy ===
/** The study progress of app.js: which anchors were seen and heard, tied to the signature of
    the dataset they belong to (`applyStoredProgressToAnchors`, `markAnchorSeen`,
    `markAnchorHeard`). Writing it to local storage is left out. */
module Progress {
  import opened Wrappers
  import opened JsString

  type AnchorId = Str

  /** `state.progress`: the signature the sets belong to (null until one is set) and the ids
      of the anchors seen and heard. */
  datatype Progress = Progress(signature: Option<Str>, seen: set<AnchorId>, heard: set<AnchorId>)

  /** `applyStoredProgressToAnchors(signature)`: progress for another dataset, or for no
      dataset at all (an empty signature), is dropped and the signature recorded; progress
      for the same dataset is kept as it is. */
  function ApplyStoredProgress(p: Progress, signature: Str): (r: Progress)
    ensures r.signature == Some(signature)
    ensures signature != [] && p.signature == Some(signature) ==> r == p
    ensures signature == [] || p.signature != Some(signature) ==> r.seen == {} && r.heard == {}
  {
    if signature == [] || p.signature != Some(signature) then Progress(Some(signature), {}, {})
    else p
  }

  /** Applying the same signature twice is applying it once. */
  lemma ApplyStoredProgressTwice(p: Progress, signature: Str)
    requires signature != []
    ensures ApplyStoredProgress(ApplyStoredProgress(p, signature), signature) == ApplyStoredProgress(p, signature)
  {
  }

  /** Progress survives a reload exactly when the signature is non-empty and unchanged,
      unless there was none to lose. */
  lemma ProgressKeptIff(p: Progress, signature: Str)
    requires p.seen != {} || p.heard != {}
    ensures ApplyStoredProgress(p, signature) == p <==> signature != [] && p.signature == Some(signature)
  {
  }

  /** `markAnchorSeen(id)`: the id joins the seen set; nothing else changes. */
  function MarkSeen(p: Progress, id: AnchorId): (r: Progress)
    ensures r.seen == p.seen + {id}
    ensures r.heard == p.heard && r.signature == p.signature
    ensures id in p.seen ==> r == p
  {
    if id in p.seen then p else p.(seen := p.seen + {id})
  }

  /** `markAnchorHeard(id)`: the id joins the heard set; nothing else changes. */
  function MarkHeard(p: Progress, id: AnchorId): (r: Progress)
    ensures r.heard == p.heard + {id}
    ensures r.seen == p.seen && r.signature == p.signature
    ensures id in p.heard ==> r == p
  {
    if id in p.heard then p else p.(heard := p.heard + {id})
  }

  /** Marking is idempotent, and marks of either kind may come in any order. */
  lemma MarksCommute(p: Progress, a: AnchorId, b: AnchorId)
    ensures MarkSeen(MarkSeen(p, a), a) == MarkSeen(p, a)
    ensures MarkHeard(MarkHeard(p, a), a) == MarkHeard(p, a)
    ensures MarkSeen(MarkHeard(p, a), b) == MarkHeard(MarkSeen(p, b), a)
    ensures MarkSeen(MarkSeen(p, a), b) == MarkSeen(MarkSeen(p, b), a)
  {
  }

  /** Marks only ever add: after any sequence of marks, every id seen or heard before still is. */
  function MarkAll(p: Progress, seenIds: seq<AnchorId>, heardIds: seq<AnchorId>): (r: Progress)
    ensures p.seen <= r.seen && p.heard <= r.heard && r.signature == p.signature
    ensures forall i :: 0 <= i < |seenIds| ==> seenIds[i] in r.seen
    ensures forall i :: 0 <= i < |heardIds| ==> heardIds[i] in r.heard
    decreases |seenIds| + |heardIds|
  {
    if seenIds != [] then MarkAll(MarkSeen(p, seenIds[0]), seenIds[1..], heardIds)
    else if heardIds != [] then MarkAll(MarkHeard(p, heardIds[0]), seenIds, heardIds[1..])
    else p
  }
}

=== FILE: radix.dfy ===
/** `Number.prototype.toString(radix)` on non-negative integers: lower-case digits, no
    leading zeros, "0" for zero. app.js renders hashes in base 36 and positions in base 10. */
module Radix {
  import opened JsString
  import opened Arith

  /** The code unit of digit `d`: `0`-`9`, then `a`-`z`. */
  function DigitChar(d: nat): (c: CodeUnit)
    requires d < 36
  {
    if d < 10 then (0x30 + d) as CodeUnit else (0x61 + d - 10) as CodeUnit
  }

  /** The value of a digit code unit, or 36 when `c` is no digit at all. */
  function DigitValue(c: CodeUnit): (d: nat)
    ensures d <= 36
    ensures d < 36 ==> DigitChar(d) == c
  {
    if 0x30 <= c <= 0x39 then (c - 0x30) as nat
    else if 0x61 <= c <= 0x7A then (c - 0x61) as nat + 10
    else 36
  }

  predicate IsDigit(c: CodeUnit, base: nat) {
    DigitValue(c) < base
  }

  predicate AllDigits(s: Str, base: nat) {
    forall i :: 0 <= i < |s| ==> IsDigit(s[i], base)
  }

  /** A numeral as `toString` writes it: non-empty, digits only, and no leading zero
      unless the numeral is "0" itself. */
  predicate Canonical(s: Str, base: nat) {
    |s| >= 1 && AllDigits(s, base) && (|s| == 1 || DigitValue(s[0]) != 0)
  }

  /** The number a numeral denotes. */
  function Value(s: Str, base: nat): nat
    requires AllDigits(s, base)
  {
    if |s| == 0 then 0
    else Value(s[..|s| - 1], base) * base + DigitValue(s[|s| - 1])
  }

  /** Euclidean division by a base: quotient and remainder, and the quotient of a number
      at least the base is positive and smaller than the number. */
  lemma DivFacts(n: nat, base: nat)
    requires 2 <= base
    ensures n == (n / base) * base + n % base && 0 <= n % base < base
    ensures n >= base ==> 1 <= n / base < n
  {
  }

  /** The numeral of `n` in `base`. */
  function ToRadix(n: nat, base: nat): (s: Str)
    requires 2 <= base <= 36
    ensures Canonical(s, base)
    decreases n
  {
    if n < base then [DigitChar(n)]
    else
      DivFacts(n, base);
      var front := ToRadix(n / base, base);
      assert DigitValue(front[0]) != 0 || |front| > 1 by {
        if |front| == 1 {
          assert n / base >= 1;
        }
      }
      front + [DigitChar(n % base)]
  }

  /** Reading the numeral back gives the number: rendering is lossless. */
  lemma {:induction false} ValueOfToRadix(n: nat, base: nat)
    requires 2 <= base <= 36
    ensures Value(ToRadix(n, base), base) == n
    decreases n
  {
    if n >= base {
      DivFacts(n, base);
      var front := ToRadix(n / base, base);
      var s := front + [DigitChar(n % base)];
      ValueOfToRadix(n / base, base);
      assert s[..|s| - 1] == front;
    }
  }

  /** A numeral whose first digit is not zero denotes a positive number. */
  lemma {:induction false} LeadingDigitPositive(s: Str, base: nat)
    requires 2 <= base <= 36
    requires |s| >= 1 && AllDigits(s, base) && DigitValue(s[0]) != 0
    ensures Value(s, base) >= 1
    ensures |s| >= 2 ==> Value(s, base) >= base
  {
    if |s| >= 2 {
      var p := s[..|s| - 1];
      assert p[0] == s[0] && AllDigits(p, base);
      LeadingDigitPositive(p, base);
      assert Value(p, base) * base >= base by {
        MulGap(0, Value(p, base), base);
      }
    } else {
      assert s[..0] == [];
    }
  }

  /** Every canonical numeral is the rendering of the number it denotes, so two numbers
      with the same rendering are equal. */
  lemma {:induction false} ToRadixOfValue(s: Str, base: nat)
    requires 2 <= base <= 36
    requires Canonical(s, base)
    ensures ToRadix(Value(s, base), base) == s
    decreases |s|
  {
    var n := Value(s, base);
    var last := DigitValue(s[|s| - 1]);
    if |s| == 1 {
      assert s[..0] == [];
      assert Value(s[..0], base) == 0;
      assert n == last;
    } else {
      var p := s[..|s| - 1];
      assert p[0] == s[0];
      LeadingDigitPositive(s, base);
      ToRadixOfValue(p, base);
      assert n == Value(p, base) * base + last;
      DivUnique(n, base, Value(p, base), last);
      assert s == p + [s[|s| - 1]];
    }
  }

  /** Rendering is injective. */
  lemma ToRadixInjective(m: nat, n: nat, base: nat)
    requires 2 <= base <= 36
    requires ToRadix(m, base) == ToRadix(n, base)
    ensures m == n
  {
    ValueOfToRadix(m, base);
    ValueOfToRadix(n, base);
  }
}

=== FILE: rooms.dfy ===
/** Spreading the anchors over the rooms of the palace (`shuffle`, `assignAnchorsToRooms`,
    `getRoomCapacity`) and moving between a room's pages (`changeRoomPage`). The anchors
    are of any type `T`: the assignment never looks inside them. */
module Rooms {
  import opened Wrappers
  import opened JsString
  import opened Arith
  import opened Pages

  type RoomId = Str

  // ---------------------------------------------------------------------------
  // shuffle

  /** `[list[i], list[j]] = [list[j], list[i]]`. */
  function Swap<T(==)>(list: seq<T>, i: nat, j: nat): (r: seq<T>)
    requires i < |list| && j < |list|
    ensures |r| == |list| && r[i] == list[j] && r[j] == list[i]
    ensures forall k :: 0 <= k < |list| && k != i && k != j ==> r[k] == list[k]
    ensures multiset(r) == multiset(list)
  {
    list[i := list[j]][j := list[i]]
  }

  /** The iterations `i, i - 1, ..., 1` of the Fisher-Yates loop; `pick(i)` is the draw
      of iteration `i`. */
  function ShuffleDown<T(==)>(list: seq<T>, i: nat, pick: nat -> nat): (r: seq<T>)
    requires i < |list|
    ensures |r| == |list| && multiset(r) == multiset(list)
    decreases i
  {
    if i == 0 then list
    else ShuffleDown(Swap(list, i, Draw(pick, i)), i - 1, pick)
  }

  /** The position iteration `i` swaps with, `Math.floor(Math.random() * (i + 1))`: some
      position in `0..i`. A draw past `i` is read as `i`; every position stays reachable. */
  function Draw(pick: nat -> nat, i: nat): (j: nat)
    ensures j <= i
  {
    if pick(i) <= i then pick(i) else i
  }

  /** `shuffle(list)`: a permutation of the list, chosen by the draws. */
  function Shuffle<T(==)>(list: seq<T>, pick: nat -> nat): (r: seq<T>)
    ensures |r| == |list| && multiset(r) == multiset(list)
  {
    if |list| == 0 then list else ShuffleDown(list, |list| - 1, pick)
  }

  /** Draws that always land on the current position leave the order as it was. */
  lemma {:induction false} ShuffleCanKeepOrder<T>(list: seq<T>, i: nat, pick: nat -> nat)
    requires i < |list|
    requires forall k: nat :: Draw(pick, k) == k
    ensures ShuffleDown(list, i, pick) == list
  {
    if i > 0 {
      var swapped := Swap(list, i, Draw(pick, i));
      assert ShuffleDown(list, i, pick) == ShuffleDown(swapped, i - 1, pick);
      assert swapped == list by {
        assert Draw(pick, i) == i;
        SwapSame(list, i);
      }
      ShuffleCanKeepOrder(list, i - 1, pick);
    }
  }

  lemma SwapSame<T>(list: seq<T>, i: nat)
    requires i < |list|
    ensures Swap(list, i, i) == list
  {
    assert list[i := list[i]] == list;
  }

  // ---------------------------------------------------------------------------
  // round-robin deal

  /** `state.roomAssignments.get(roomId) ?? []`. */
  function Share<T(==)>(m: map<RoomId, seq<T>>, id: RoomId): seq<T> {
    if id in m then m[id] else []
  }

  /** Creating the room's list when it has none, then pushing `x` onto it. */
  function Push<T(==)>(m: map<RoomId, seq<T>>, id: RoomId, x: T): (r: map<RoomId, seq<T>>)
    ensures r.Keys == m.Keys + {id}
    ensures Share(r, id) == Share(m, id) + [x]
    ensures forall other :: other != id ==> Share(r, other) == Share(m, other)
  {
    m[id := Share(m, id) + [x]]
  }

  /** `anchors.forEach((anchor, idx) => push anchor onto rooms[idx % rooms.length])`. */
  function Deal<T(==)>(anchors: seq<T>, rooms: seq<RoomId>): (m: map<RoomId, seq<T>>)
    requires |rooms| > 0
    ensures forall id :: id in m ==> id in rooms
    decreases |anchors|
  {
    if anchors == [] then map[]
    else
      var i := |anchors| - 1;
      Push(Deal(anchors[..i], rooms), rooms[i % |rooms|], anchors[i])
  }

  predicate Distinct(rooms: seq<RoomId>) {
    forall i, j :: 0 <= i < j < |rooms| ==> rooms[i] != rooms[j]
  }

  /** How many of `count` anchors dealt round-robin over `n` rooms land in room `k`. */
  function ColumnSize(count: nat, n: nat, k: nat): nat
    requires n > 0
  {
    count / n + (if k < count % n then 1 else 0)
  }

  /** `share` is what room `k` of `n` receives from a round-robin deal of `anchors`: the
      anchors at positions `k`, `k + n`, `k + 2n`, ..., in that order. */
  predicate IsColumn<T(==)>(share: seq<T>, anchors: seq<T>, n: nat, k: nat)
    requires n > 0
  {
    && |share| == ColumnSize(|anchors|, n, k)
    && forall t :: 0 <= t < |share| ==> t * n + k < |anchors| && share[t] == anchors[t * n + k]
  }

  /** Dealing one more anchor: its room's column grows by that anchor, the others stay. */
  lemma ColumnStep<T>(share: seq<T>, anchors: seq<T>, x: T, n: nat, k: nat)
    requires n > 0 && k < n && IsColumn(share, anchors, n, k)
    ensures |anchors| % n == k ==> IsColumn(share + [x], anchors + [x], n, k)
    ensures |anchors| % n != k ==> IsColumn(share, anchors + [x], n, k)
  {
    var i := |anchors|;
    DivModSucc(i, n);
    var grown := anchors + [x];
    if i % n == k {
      assert (i / n) * n + k == i;
      var s := share + [x];
      forall t | 0 <= t < |s| ensures t * n + k < |grown| && s[t] == grown[t * n + k] {
        if t < |share| {
          assert s[t] == share[t];
        }
      }
    } else {
      forall t | 0 <= t < |share| ensures t * n + k < |grown| && share[t] == grown[t * n + k] {
      }
    }
  }

  /** With distinct rooms, room `k` receives exactly the anchors at positions `k`, `k + n`,
      `k + 2n`, ..., in their order: anchor `i` goes to room `i % n`. */
  lemma {:induction false} DealColumns<T>(anchors: seq<T>, rooms: seq<RoomId>, k: nat)
    requires |rooms| > 0 && Distinct(rooms) && k < |rooms|
    ensures IsColumn(Share(Deal(anchors, rooms), rooms[k]), anchors, |rooms|, k)
    decreases |anchors|
  {
    var n := |rooms|;
    if anchors != [] {
      var i := |anchors| - 1;
      var prefix := anchors[..i];
      DealColumns(prefix, rooms, k);
      assert prefix + [anchors[i]] == anchors;
      ColumnStep(Share(Deal(prefix, rooms), rooms[k]), prefix, anchors[i], n, k);
      if i % n != k {
        assert rooms[i % n] != rooms[k];
      }
    }
  }

  /** Round-robin keeps the rooms balanced: any two receive counts that differ by at most one. */
  lemma DealBalanced<T>(anchors: seq<T>, rooms: seq<RoomId>, k: nat, l: nat)
    requires |rooms| > 0 && Distinct(rooms) && k < |rooms| && l < |rooms|
    ensures var a, b := |Share(Deal(anchors, rooms), rooms[k])|, |Share(Deal(anchors, rooms), rooms[l])|;
            -1 <= a - b <= 1
  {
    DealColumns(anchors, rooms, k);
    DealColumns(anchors, rooms, l);
  }

  /** All that the rooms `rooms` hold, together. */
  function Pooled<T(==)>(m: map<RoomId, seq<T>>, rooms: seq<RoomId>): multiset<T> {
    if rooms == [] then multiset{}
    else Pooled(m, rooms[..|rooms| - 1]) + multiset(Share(m, rooms[|rooms| - 1]))
  }

  lemma {:induction false} PooledEmpty<T>(rooms: seq<RoomId>)
    ensures Pooled<T>(map[], rooms) == multiset{}
  {
    if rooms != [] {
      PooledEmpty<T>(rooms[..|rooms| - 1]);
    }
  }

  /** Pushing onto one of the rooms adds the anchor to the pool once. */
  lemma {:induction false} PooledPush<T>(m: map<RoomId, seq<T>>, rooms: seq<RoomId>, k: nat, x: T)
    requires Distinct(rooms) && k < |rooms|
    ensures Pooled(Push(m, rooms[k], x), rooms) == Pooled(m, rooms) + multiset{x}
  {
    var init := rooms[..|rooms| - 1];
    if k == |rooms| - 1 {
      PooledPushLast(m, rooms, x);
    } else {
      assert Distinct(init) && init[k] == rooms[k];
      PooledPush(m, init, k, x);
      PooledPushInit(m, rooms, k, x);
    }
  }

  /** The last room's step of `PooledPush`: the rooms before it are not touched. */
  lemma PooledPushLast<T>(m: map<RoomId, seq<T>>, rooms: seq<RoomId>, x: T)
    requires rooms != []
    requires forall j :: 0 <= j < |rooms| - 1 ==> rooms[j] != rooms[|rooms| - 1]
    ensures Pooled(Push(m, rooms[|rooms| - 1], x), rooms) == Pooled(m, rooms) + multiset{x}
  {
    var init, last := rooms[..|rooms| - 1], rooms[|rooms| - 1];
    assert forall j :: 0 <= j < |init| ==> init[j] != last;
    PooledPushElsewhere(m, init, last, x);
    assert Share(Push(m, last, x), last) == Share(m, last) + [x];
  }

  /** An earlier room's step of `PooledPush`: the last room is not touched. */
  lemma PooledPushInit<T>(m: map<RoomId, seq<T>>, rooms: seq<RoomId>, k: nat, x: T)
    requires k < |rooms| - 1 && rooms[k] != rooms[|rooms| - 1]
    requires Pooled(Push(m, rooms[k], x), rooms[..|rooms| - 1]) == Pooled(m, rooms[..|rooms| - 1]) + multiset{x}
    ensures Pooled(Push(m, rooms[k], x), rooms) == Pooled(m, rooms) + multiset{x}
  {
    assert Share(Push(m, rooms[k], x), rooms[|rooms| - 1]) == Share(m, rooms[|rooms| - 1]);
  }

  /** Pushing onto a room outside `rooms` leaves their pool alone. */
  lemma {:induction false} PooledPushElsewhere<T>(m: map<RoomId, seq<T>>, rooms: seq<RoomId>, id: RoomId, x: T)
    requires forall j :: 0 <= j < |rooms| ==> rooms[j] != id
    ensures Pooled(Push(m, id, x), rooms) == Pooled(m, rooms)
  {
    if rooms != [] {
      var init := rooms[..|rooms| - 1];
      assert forall j :: 0 <= j < |init| ==> init[j] != id;
      PooledPushElsewhere(m, init, id, x);
    }
  }

  /** With distinct rooms the deal loses and duplicates nothing: together the rooms hold
      exactly the anchors. */
  lemma {:induction false} DealKeepsAll<T>(anchors: seq<T>, rooms: seq<RoomId>)
    requires |rooms| > 0 && Distinct(rooms)
    ensures Pooled(Deal(anchors, rooms), rooms) == multiset(anchors)
    decreases |anchors|
  {
    if anchors == [] {
      PooledEmpty<T>(rooms);
    } else {
      var i := |anchors| - 1;
      var prefix, x := anchors[..i], anchors[i];
      calc {
        Pooled(Deal(anchors, rooms), rooms);
        == { DealStep(anchors, rooms); }
        Pooled(Deal(prefix, rooms), rooms) + multiset{x};
        == { DealKeepsAll(prefix, rooms); }
        multiset(prefix) + multiset{x};
        == { assert prefix + [x] == anchors; }
        multiset(anchors);
      }
    }
  }

  /** Dealing one more anchor adds it to the pool of the rooms. */
  lemma DealStep<T>(anchors: seq<T>, rooms: seq<RoomId>)
    requires |rooms| > 0 && Distinct(rooms) && anchors != []
    ensures Pooled(Deal(anchors, rooms), rooms) ==
            Pooled(Deal(anchors[..|anchors| - 1], rooms), rooms) + multiset{anchors[|anchors| - 1]}
  {
    var i := |anchors| - 1;
    var k := i % |rooms|;
    PooledPush(Deal(anchors[..i], rooms), rooms, k, anchors[i]);
  }

  // ---------------------------------------------------------------------------
  // capacity

  /** "default" */
  const DEFAULT_KEY: Str := [0x64, 0x65, 0x66, 0x61, 0x75, 0x6C, 0x74]
  const DEFAULT_CAPACITY := 12

  /** `getRoomCapacity(roomId)` over `config.roomCap`, whose values are numbers here: the
      room's own entry when it is positive, else the `default` entry (whatever its sign),
      else 12. */
  function GetRoomCapacity(roomCap: Option<map<Str, int>>, id: RoomId): (cap: int)
    ensures roomCap.None? ==> cap == DEFAULT_CAPACITY
    ensures roomCap.Some? && id in roomCap.value && roomCap.value[id] > 0 ==> cap == roomCap.value[id]
    ensures roomCap.Some? && !(id in roomCap.value && roomCap.value[id] > 0) ==>
              cap == (if DEFAULT_KEY in roomCap.value then roomCap.value[DEFAULT_KEY] else DEFAULT_CAPACITY)
    ensures cap <= 0 ==> roomCap.Some? && DEFAULT_KEY in roomCap.value && cap == roomCap.value[DEFAULT_KEY]
  {
    match roomCap
    case None => DEFAULT_CAPACITY
    case Some(caps) =>
      if id in caps && caps[id] > 0 then caps[id]
      else if DEFAULT_KEY in caps then caps[DEFAULT_KEY]
      else DEFAULT_CAPACITY
  }

  /** Every room gets a positive capacity unless the config's `default` is itself not
      positive; and a room's own positive entry overrides `default`. */
  lemma CapacityPositive(roomCap: Option<map<Str, int>>, id: RoomId)
    ensures GetRoomCapacity(roomCap, id) > 0 <==>
              || (roomCap.Some? && id in roomCap.value && roomCap.value[id] > 0)
              || roomCap.None? || DEFAULT_KEY !in roomCap.value || roomCap.value[DEFAULT_KEY] > 0
  {
  }

  // ---------------------------------------------------------------------------
  // assignAnchorsToRooms

  /** What `assignAnchorsToRooms` rebuilds: each room's anchors, each room's pages, and the
      page each room entity of the scene shows. */
  datatype Layout<T> = Layout(
    assignments: map<RoomId, seq<T>>,
    pages: map<RoomId, seq<seq<T>>>,
    currentPage: map<RoomId, int>)

  /** `assignAnchorsToRooms()`: with no rooms in `roomOrder` both maps are emptied and the
      room entities keep their pages; otherwise the anchors are shuffled and dealt
      round-robin, every room of `roomOrder` gets its share paginated by its capacity, and
      every room entity named in `roomOrder` goes back to page 0. */
  function AssignAnchorsToRooms<T(==)>(anchors: seq<T>, roomOrder: seq<RoomId>, roomCap: Option<map<Str, int>>,
                                   pick: nat -> nat, currentPage: map<RoomId, int>): (r: Layout<T>)
    ensures roomOrder == [] ==> r.assignments == map[] && r.pages == map[] && r.currentPage == currentPage
    ensures r.pages.Keys == set id | id in roomOrder
    ensures forall id :: id in roomOrder ==>
              Flatten(r.pages[id]) == Share(r.assignments, id) && |r.pages[id]| >= 1
    ensures r.currentPage.Keys == currentPage.Keys
    ensures forall id :: id in currentPage ==>
              r.currentPage[id] == (if id in roomOrder then 0 else currentPage[id])
  {
    if roomOrder == [] then Layout(map[], map[], currentPage)
    else
      var assignments := Deal(Shuffle(anchors, pick), roomOrder);
      Layout(assignments, RoomPages(assignments, roomOrder, roomCap), FirstPages(currentPage, roomOrder))
  }

  /** `state.roomPages`: every room of `roomOrder` with its share paginated by its capacity;
      each page list is non-empty and holds the share in order. */
  function RoomPages<T(==)>(assignments: map<RoomId, seq<T>>, roomOrder: seq<RoomId>,
                            roomCap: Option<map<Str, int>>): (pages: map<RoomId, seq<seq<T>>>)
    ensures pages.Keys == set id | id in roomOrder
    ensures forall id :: id in roomOrder ==>
              pages[id] == Paginate(Share(assignments, id), GetRoomCapacity(roomCap, id))
    ensures forall id :: id in roomOrder ==>
              Flatten(pages[id]) == Share(assignments, id) && |pages[id]| >= 1
  {
    var pages := map id | id in roomOrder :: Paginate(Share(assignments, id), GetRoomCapacity(roomCap, id));
    FlattenAllPages(assignments, roomCap, roomOrder, pages);
    pages
  }

  /** Every room entity named in `roomOrder` back on page 0; the others keep their page. */
  function FirstPages(currentPage: map<RoomId, int>, roomOrder: seq<RoomId>): (r: map<RoomId, int>)
    ensures r.Keys == currentPage.Keys
    ensures forall id :: id in currentPage ==> r[id] == (if id in roomOrder then 0 else currentPage[id])
  {
    map id | id in currentPage :: if id in roomOrder then 0 else currentPage[id]
  }

  lemma FlattenAllPages<T>(assignments: map<RoomId, seq<T>>, roomCap: Option<map<Str, int>>,
                           roomOrder: seq<RoomId>, pages: map<RoomId, seq<seq<T>>>)
    requires forall id :: id in roomOrder ==>
               id in pages && pages[id] == Paginate(Share(assignments, id), GetRoomCapacity(roomCap, id))
    ensures forall id :: id in roomOrder ==> Flatten(pages[id]) == Share(assignments, id)
  {
    forall id | id in roomOrder ensures Flatten(pages[id]) == Share(assignments, id) {
      FlattenPaginate(Share(assignments, id), GetRoomCapacity(roomCap, id));
    }
  }

  /** With distinct rooms, the assignment is a round-robin deal of a permutation of the
      anchors: room `k` holds the shuffled anchors `k`, `k + n`, ..., the rooms together
      hold exactly the anchors, and room counts differ by at most one. */
  lemma AssignmentDistribution<T>(anchors: seq<T>, roomOrder: seq<RoomId>, roomCap: Option<map<Str, int>>,
                                  pick: nat -> nat, currentPage: map<RoomId, int>, k: nat)
    requires Distinct(roomOrder) && k < |roomOrder|
    ensures var layout := AssignAnchorsToRooms(anchors, roomOrder, roomCap, pick, currentPage);
            && IsColumn(Share(layout.assignments, roomOrder[k]), Shuffle(anchors, pick), |roomOrder|, k)
            && Pooled(layout.assignments, roomOrder) == multiset(anchors)
  {
    DealColumns(Shuffle(anchors, pick), roomOrder, k);
    DealKeepsAll(Shuffle(anchors, pick), roomOrder);
  }

  /** Each room's pages follow its capacity: a positive capacity bounds every page and fills
      all but the last; without a positive capacity the room has a single page. */
  lemma AssignedPagesFollowCapacity<T>(anchors: seq<T>, roomOrder: seq<RoomId>, roomCap: Option<map<Str, int>>,
                                       pick: nat -> nat, currentPage: map<RoomId, int>, id: RoomId)
    requires id in roomOrder
    ensures var pages := AssignAnchorsToRooms(anchors, roomOrder, roomCap, pick, currentPage).pages[id];
            var cap := GetRoomCapacity(roomCap, id);
            && (cap > 0 ==> forall k :: 0 <= k < |pages| ==> |pages[k]| <= cap)
            && (cap > 0 ==> forall k :: 0 <= k < |pages| - 1 ==> |pages[k]| == cap)
            && (cap <= 0 ==> |pages| == 1)
  {
  }

  // ---------------------------------------------------------------------------
  // changeRoomPage

  /** The page list of a room as `changeRoomPage` reads it: `state.roomPages.get(id) ?? [[]]`. */
  function PagesOf<T(==)>(layout: Layout<T>, id: RoomId): seq<seq<T>> {
    if id in layout.pages then layout.pages[id] else [[]]
  }

  /** Every room with pages has at least one: what `paginate` guarantees. */
  predicate PagesNonEmpty<T(==)>(layout: Layout<T>) {
    forall id :: id in layout.pages ==> |layout.pages[id]| >= 1
  }

  /** `changeRoomPage(delta)`: nothing happens without a current room or when that room has
      no entity; otherwise its page moves by `delta`, clamped to the room's pages. */
  function ChangeRoomPage<T(==)>(layout: Layout<T>, currentRoomId: Option<RoomId>, delta: int): (r: Layout<T>)
    requires PagesNonEmpty(layout)
    ensures r.assignments == layout.assignments && r.pages == layout.pages
    ensures r.currentPage.Keys == layout.currentPage.Keys
    ensures currentRoomId.None? || currentRoomId.value == [] || currentRoomId.value !in layout.currentPage ==>
              r == layout
    ensures forall id :: id in layout.currentPage && Some(id) != currentRoomId ==>
              r.currentPage[id] == layout.currentPage[id]
    ensures currentRoomId.Some? && currentRoomId.value != [] && currentRoomId.value in r.currentPage ==>
              0 <= r.currentPage[currentRoomId.value] < |PagesOf(layout, currentRoomId.value)|
    ensures currentRoomId.Some? && currentRoomId.value != [] && currentRoomId.value in layout.currentPage ==>
              var id := currentRoomId.value;
              && (0 <= layout.currentPage[id] + delta < |PagesOf(layout, id)| ==>
                    r.currentPage[id] == layout.currentPage[id] + delta)
              && (layout.currentPage[id] + delta >= |PagesOf(layout, id)| ==>
                    r.currentPage[id] == |PagesOf(layout, id)| - 1)
              && (layout.currentPage[id] + delta < 0 ==> r.currentPage[id] == 0)
  {
    match currentRoomId
    case None => layout
    case Some(id) =>
      if id == [] || id !in layout.currentPage then layout
      else
        var next := Clamp(layout.currentPage[id] + delta, 0, |PagesOf(layout, id)| - 1);
        if next != layout.currentPage[id] then layout.(currentPage := layout.currentPage[id := next])
        else layout
  }

  /** The page moves by exactly `delta` when that stays within the room's pages. */
  lemma ChangeRoomPageMovesBy<T>(layout: Layout<T>, id: RoomId, delta: int)
    requires PagesNonEmpty(layout) && id != [] && id in layout.currentPage
    requires 0 <= layout.currentPage[id] + delta < |PagesOf(layout, id)|
    ensures ChangeRoomPage(layout, Some(id), delta).currentPage[id] == layout.currentPage[id] + delta
  {
  }

  /** Paging past either end is a no-op: "next" on the last page and "previous" on the first
      leave the layout as it is. */
  lemma ChangeRoomPageAtEnds<T>(layout: Layout<T>, id: RoomId, delta: int)
    requires PagesNonEmpty(layout) && id != [] && id in layout.currentPage
    requires (layout.currentPage[id] == |PagesOf(layout, id)| - 1 && delta >= 0) ||
             (layout.currentPage[id] == 0 && delta <= 0)
    ensures ChangeRoomPage(layout, Some(id), delta) == layout
  {
  }

  /** The assignment leaves every room with at least one page, so navigation stays in range. */
  lemma AssignedPagesNonEmpty<T>(anchors: seq<T>, roomOrder: seq<RoomId>, roomCap: Option<map<Str, int>>,
                                 pick: nat -> nat, currentPage: map<RoomId, int>)
    ensures PagesNonEmpty(AssignAnchorsToRooms(anchors, roomOrder, roomCap, pick, currentPage))
  {
  }
}

=== FILE: saves.dfy ===
/** The list of saved palace layouts (`updateSaveButtonState`, `saveCurrentPalace`,
    `deleteSavedPalace`): newest first, one entry per name, at most twelve. Writing the list
    to local storage and rendering it are left out. */
module Saves {
  import opened Wrappers
  import opened JsString
  import opened Radix
  import opened Fingerprint

  const MAX_SAVED := 12
  const MIN_NAME_LENGTH := 2
  /** "null", what a missing signature turns into inside a template string. */
  const NULL_TEXT: Str := [0x6E, 0x75, 0x6C, 0x6C]

  datatype SavedLayout = SavedLayout(
    id: Str, name: Str, savedAt: int,
    tsvText: Str, assetRoot: Str, datasetSignature: Option<Str>)

  /** The part of the app state these operations read and write. */
  datatype Saves = Saves(saved: seq<SavedLayout>, currentSavedId: Option<Str>)

  datatype SaveError = NoDataset | NameTooShort

  // ---------------------------------------------------------------------------
  // filtering

  /** `list.filter(keep)`. */
  function Filter<T>(list: seq<T>, keep: T -> bool): (r: seq<T>)
    ensures |r| <= |list|
    ensures forall i :: 0 <= i < |r| ==> keep(r[i])
  {
    if list == [] then [] else (if keep(list[0]) then [list[0]] else []) + Filter(list[1..], keep)
  }

  /** An element survives the filter exactly when it was there and passes. */
  lemma {:induction false} FilterMembership<T>(list: seq<T>, keep: T -> bool, x: T)
    ensures x in Filter(list, keep) <==> x in list && keep(x)
  {
    if list != [] {
      FilterMembership(list[1..], keep, x);
      assert x in list <==> x == list[0] || x in list[1..];
    }
  }

  /** Filtering a concatenation filters each part: the survivors keep their order. */
  lemma {:induction false} FilterAppend<T>(a: seq<T>, b: seq<T>, keep: T -> bool)
    ensures Filter(a + b, keep) == Filter(a, keep) + Filter(b, keep)
  {
    if a == [] {
      assert a + b == b;
    } else {
      var ab := a + b;
      assert ab[0] == a[0] && ab[1..] == a[1..] + b;
      var head := if keep(a[0]) then [a[0]] else [];
      assert Filter(ab, keep) == head + Filter(a[1..] + b, keep);
      assert Filter(a, keep) == head + Filter(a[1..], keep);
      FilterAppend(a[1..], b, keep);
    }
  }

  /** A list whose elements all pass comes through unchanged. */
  lemma {:induction false} FilterAllPass<T>(list: seq<T>, keep: T -> bool)
    requires forall i :: 0 <= i < |list| ==> keep(list[i])
    ensures Filter(list, keep) == list
  {
    if list != [] {
      FilterAllPass(list[1..], keep);
    }
  }

  function NameIsNot(name: Str): SavedLayout -> bool {
    (e: SavedLayout) => e.name != name
  }

  function IdIsNot(id: Str): SavedLayout -> bool {
    (e: SavedLayout) => e.id != id
  }

  // ---------------------------------------------------------------------------
  // saving

  /** `Boolean(state.currentTSVText)`: a non-empty dataset text is loaded. */
  predicate HasDataset(currentTsvText: Option<Str>) {
    currentTsvText.Some? && currentTsvText.value != []
  }

  /** `updateSaveButtonState`: the save button is enabled exactly when a dataset is loaded
      and the trimmed name has at least two code units. */
  predicate SaveEnabled(currentTsvText: Option<Str>, nameInput: Str) {
    HasDataset(currentTsvText) && |Trim(nameInput)| >= MIN_NAME_LENGTH
  }

  /** The id of a new entry: the decimal time, "-", and the hash of the name followed by the
      dataset signature (or "null"). */
  function SaveId(idTime: nat, name: Str, signature: Option<Str>): (id: Str)
    ensures |id| > |ToRadix(idTime, 10)| && id[..|ToRadix(idTime, 10)|] == ToRadix(idTime, 10)
    ensures id[|ToRadix(idTime, 10)|] == HYPHEN
    ensures id[|ToRadix(idTime, 10)| + 1..] == HashString(name + (if signature.Some? then signature.value else NULL_TEXT))
  {
    ToRadix(idTime, 10) + [HYPHEN] + HashString(name + signature.OrElse(NULL_TEXT))
  }

  /** The time an id was made can be read back from it: the decimal digits hold no "-", so
      the first "-" ends them. Ids made at different times differ, whatever the names. */
  lemma SaveIdTime(t: nat, name: Str, signature: Option<Str>, t': nat, name': Str, signature': Option<Str>)
    requires SaveId(t, name, signature) == SaveId(t', name', signature')
    ensures t == t'
  {
    var id, a, b := SaveId(t, name, signature), ToRadix(t, 10), ToRadix(t', 10);
    NumeralHasNoSeparator(a, 10, HYPHEN);
    NumeralHasNoSeparator(b, 10, HYPHEN);
    if |a| != |b| {
      assert false;
    }
    assert a == id[..|a|] == b;
    ToRadixInjective(t, t', 10);
  }

  /** `saveCurrentPalace()`. Without a dataset, or with a trimmed name shorter than two,
      nothing changes and the user is told why. Otherwise the new entry goes first, any
      older entry of the same name goes away, the rest follow in their order, the list is
      cut to twelve, and the new entry becomes the current one. `idTime` and `savedAt` are
      the two readings of the clock. */
  function SaveCurrentPalace(s: Saves, currentTsvText: Option<Str>, currentAssetRoot: Str,
                             datasetSignature: Option<Str>, nameInput: Str,
                             idTime: nat, savedAt: int): (r: Result<Saves, SaveError>)
    ensures r.Failure? <==> !SaveEnabled(currentTsvText, nameInput)
    ensures r.Failure? ==> r.error == (if HasDataset(currentTsvText) then NameTooShort else NoDataset)
    ensures r.Success? ==>
              && 1 <= |r.value.saved| <= MAX_SAVED
              && r.value.saved[0] == SavedLayout(SaveId(idTime, Trim(nameInput), datasetSignature),
                                                 Trim(nameInput), savedAt, currentTsvText.value,
                                                 currentAssetRoot, datasetSignature)
              && r.value.currentSavedId == Some(r.value.saved[0].id)
              && forall i :: 1 <= i < |r.value.saved| ==>
                   r.value.saved[i].name != Trim(nameInput) && r.value.saved[i] in s.saved
  {
    if !HasDataset(currentTsvText) then Failure(NoDataset)
    else
      var name := Trim(nameInput);
      if |name| < MIN_NAME_LENGTH then Failure(NameTooShort)
      else
        var entry := SavedLayout(SaveId(idTime, name, datasetSignature), name, savedAt,
                                 currentTsvText.value, currentAssetRoot, datasetSignature);
        var capped := SaveList(s.saved, entry);
        SaveListOrder(s.saved, entry);
        RestFromOld(s.saved, name, Filter(s.saved, NameIsNot(name)), capped);
        Success(Saves(capped, Some(entry.id)))
  }

  /** The list after saving `entry`: the entry, then the others of other names, cut to twelve. */
  function SaveList(saved: seq<SavedLayout>, entry: SavedLayout): seq<SavedLayout> {
    var list := [entry] + Filter(saved, NameIsNot(entry.name));
    if |list| <= MAX_SAVED then list else list[..MAX_SAVED]
  }

  lemma SaveListOrder(saved: seq<SavedLayout>, entry: SavedLayout)
    ensures var r, rest := SaveList(saved, entry), Filter(saved, NameIsNot(entry.name));
            && |r| == (if 1 + |rest| <= MAX_SAVED then 1 + |rest| else MAX_SAVED)
            && r[0] == entry && r[1..] == rest[..|r| - 1]
  {
  }

  lemma SaveListUnique(saved: seq<SavedLayout>, entry: SavedLayout)
    requires UniqueNames(saved)
    ensures UniqueNames(SaveList(saved, entry))
  {
    var r, rest := SaveList(saved, entry), Filter(saved, NameIsNot(entry.name));
    SaveListOrder(saved, entry);
    assert UniqueNames(rest) by {
      FilterKeepsUnique(saved, NameIsNot(entry.name));
    }
    forall i, j | 0 <= i < j < |r| ensures r[i].name != r[j].name {
      if i > 0 {
        assert r[i] == rest[i - 1] && r[j] == rest[j - 1];
      }
    }
  }

  lemma RestFromOld(saved: seq<SavedLayout>, name: Str, rest: seq<SavedLayout>, capped: seq<SavedLayout>)
    requires rest == Filter(saved, NameIsNot(name))
    requires 1 <= |capped| <= |rest| + 1 && capped[1..] == rest[..|capped| - 1]
    ensures forall i :: 1 <= i < |capped| ==> capped[i].name != name && capped[i] in saved
  {
    forall i | 1 <= i < |capped| ensures capped[i].name != name && capped[i] in saved {
      assert capped[i] == rest[i - 1];
      FilterMembership(saved, NameIsNot(name), rest[i - 1]);
    }
  }

  /** No two entries share a name. */
  predicate UniqueNames(saved: seq<SavedLayout>) {
    forall i, j :: 0 <= i < j < |saved| ==> saved[i].name != saved[j].name
  }

  /** After a save the entries are the new one, then the older entries of other names in
      their previous order, as many as fit. */
  lemma SaveKeepsOrder(s: Saves, currentTsvText: Option<Str>, currentAssetRoot: Str,
                       datasetSignature: Option<Str>, nameInput: Str, idTime: nat, savedAt: int)
    requires SaveEnabled(currentTsvText, nameInput)
    ensures var saved := SaveCurrentPalace(s, currentTsvText, currentAssetRoot, datasetSignature,
                                           nameInput, idTime, savedAt).value.saved;
            var rest := Filter(s.saved, NameIsNot(Trim(nameInput)));
            && |saved| == (if 1 + |rest| <= MAX_SAVED then 1 + |rest| else MAX_SAVED)
            && saved[1..] == rest[..|saved| - 1]
  {
    var saved := SaveCurrentPalace(s, currentTsvText, currentAssetRoot, datasetSignature,
                                   nameInput, idTime, savedAt).value.saved;
    assert saved == SaveList(s.saved, saved[0]);
    SaveListOrder(s.saved, saved[0]);
  }

  /** Names stay unique across saves. */
  lemma SaveKeepsNamesUnique(s: Saves, currentTsvText: Option<Str>, currentAssetRoot: Str,
                             datasetSignature: Option<Str>, nameInput: Str, idTime: nat, savedAt: int)
    requires SaveEnabled(currentTsvText, nameInput) && UniqueNames(s.saved)
    ensures UniqueNames(SaveCurrentPalace(s, currentTsvText, currentAssetRoot, datasetSignature,
                                          nameInput, idTime, savedAt).value.saved)
  {
    var saved := SaveCurrentPalace(s, currentTsvText, currentAssetRoot, datasetSignature,
                                   nameInput, idTime, savedAt).value.saved;
    assert saved == SaveList(s.saved, saved[0]);
    SaveListUnique(s.saved, saved[0]);
  }

  /** Saving under a name already in a full-or-shorter list replaces that entry: the count
      stays the same. */
  lemma SaveReplaceKeepsCount(s: Saves, currentTsvText: Option<Str>, currentAssetRoot: Str,
                              datasetSignature: Option<Str>, nameInput: Str, idTime: nat, savedAt: int, k: nat)
    requires SaveEnabled(currentTsvText, nameInput) && UniqueNames(s.saved) && |s.saved| <= MAX_SAVED
    requires k < |s.saved| && s.saved[k].name == Trim(nameInput)
    ensures |SaveCurrentPalace(s, currentTsvText, currentAssetRoot, datasetSignature,
                               nameInput, idTime, savedAt).value.saved| == |s.saved|
  {
    SaveKeepsOrder(s, currentTsvText, currentAssetRoot, datasetSignature, nameInput, idTime, savedAt);
    FilterDropsOne(s.saved, k, NameIsNot(Trim(nameInput)));
  }

  /** Filtering out the one entry the test rejects shortens the list by one. */
  lemma FilterDropsOne(xs: seq<SavedLayout>, k: nat, keep: SavedLayout -> bool)
    requires k < |xs| && !keep(xs[k])
    requires forall i :: 0 <= i < |xs| && i != k ==> keep(xs[i])
    ensures |Filter(xs, keep)| == |xs| - 1
  {
    var before, after := xs[..k], xs[k + 1..];
    assert xs == before + [xs[k]] + after;
    forall i | 0 <= i < |before| ensures keep(before[i]) {
      assert before[i] == xs[i];
    }
    forall i | 0 <= i < |after| ensures keep(after[i]) {
      assert after[i] == xs[k + 1 + i];
    }
    FilterAppend(before + [xs[k]], after, keep);
    FilterAppend(before, [xs[k]], keep);
    FilterAllPass(before, keep);
    FilterAllPass(after, keep);
    assert Filter([xs[k]], keep) == [];
  }

  /** Saving a new name into a full list drops the oldest (last) entry. */
  lemma SaveEvictsOldest(s: Saves, currentTsvText: Option<Str>, currentAssetRoot: Str,
                         datasetSignature: Option<Str>, nameInput: Str, idTime: nat, savedAt: int)
    requires SaveEnabled(currentTsvText, nameInput) && |s.saved| == MAX_SAVED
    requires forall i :: 0 <= i < |s.saved| ==> s.saved[i].name != Trim(nameInput)
    ensures var saved := SaveCurrentPalace(s, currentTsvText, currentAssetRoot, datasetSignature,
                                           nameInput, idTime, savedAt).value.saved;
            |saved| == MAX_SAVED && saved[1..] == s.saved[..MAX_SAVED - 1]
  {
    var saved := SaveCurrentPalace(s, currentTsvText, currentAssetRoot, datasetSignature,
                                   nameInput, idTime, savedAt).value.saved;
    var rest := Filter(s.saved, NameIsNot(Trim(nameInput)));
    assert rest == s.saved by {
      FilterAllPass(s.saved, NameIsNot(Trim(nameInput)));
    }
    SaveKeepsOrder(s, currentTsvText, currentAssetRoot, datasetSignature, nameInput, idTime, savedAt);
    assert |saved| == MAX_SAVED;
  }

  /** Filtering keeps names unique. */
  lemma {:induction false} FilterKeepsUnique(saved: seq<SavedLayout>, keep: SavedLayout -> bool)
    requires UniqueNames(saved)
    ensures UniqueNames(Filter(saved, keep))
  {
    if saved != [] {
      var tail := Filter(saved[1..], keep);
      FilterKeepsUnique(saved[1..], keep);
      forall k | 0 <= k < |tail| ensures tail[k].name != saved[0].name {
        FilterMembership(saved[1..], keep, tail[k]);
        var m :| 0 <= m < |saved[1..]| && saved[1..][m] == tail[k];
        assert saved[m + 1] == tail[k];
      }
    }
  }

  // ---------------------------------------------------------------------------
  // deleting

  /** `a` is `b` with some entries left out, the rest in their order. */
  predicate IsSubseq<T(==)>(a: seq<T>, b: seq<T>) {
    if a == [] then true
    else if b == [] then false
    else (a[0] == b[0] && IsSubseq(a[1..], b[1..])) || IsSubseq(a, b[1..])
  }

  /** The survivors of a filter are a subsequence of the list. */
  lemma {:induction false} FilterSubseq<T>(list: seq<T>, keep: T -> bool)
    ensures IsSubseq(Filter(list, keep), list)
  {
    if list != [] {
      var rest := Filter(list[1..], keep);
      FilterSubseq(list[1..], keep);
      if keep(list[0]) {
        assert Filter(list, keep) == [list[0]] + rest;
        assert ([list[0]] + rest)[1..] == rest;
      } else {
        assert Filter(list, keep) == rest;
      }
    }
  }

  /** A filter keeps every copy of what passes and no copy of what fails. */
  lemma {:induction false} FilterCount<T>(list: seq<T>, keep: T -> bool, x: T)
    ensures multiset(Filter(list, keep))[x] == if keep(x) then multiset(list)[x] else 0
  {
    if list != [] {
      FilterCount(list[1..], keep, x);
      assert list == [list[0]] + list[1..];
      var head := if keep(list[0]) then [list[0]] else [];
      assert Filter(list, keep) == head + Filter(list[1..], keep);
    }
  }

  lemma AllFilterCount<T>(list: seq<T>, keep: T -> bool)
    ensures forall x :: multiset(Filter(list, keep))[x] == if keep(x) then multiset(list)[x] else 0
  {
    forall x ensures multiset(Filter(list, keep))[x] == if keep(x) then multiset(list)[x] else 0 {
      FilterCount(list, keep, x);
    }
  }

  /** `deleteSavedPalace(id)`: every entry with that id goes, the others stay, in order and
      as many times as they were there, and the current id is cleared exactly when it was
      the deleted one. */
  function DeleteSavedPalace(s: Saves, id: Str): (r: Saves)
    ensures forall i :: 0 <= i < |r.saved| ==> r.saved[i].id != id
    ensures forall e :: e in s.saved && e.id != id ==> e in r.saved
    ensures forall e :: e in r.saved ==> e in s.saved
    ensures IsSubseq(r.saved, s.saved)
    ensures forall e :: multiset(r.saved)[e] == if e.id != id then multiset(s.saved)[e] else 0
    ensures r.currentSavedId == (if s.currentSavedId == Some(id) then None else s.currentSavedId)
  {
    var saved := Filter(s.saved, IdIsNot(id));
    AllMembership(s.saved, IdIsNot(id));
    FilterSubseq(s.saved, IdIsNot(id));
    AllFilterCount(s.saved, IdIsNot(id));
    Saves(saved, if s.currentSavedId == Some(id) then None else s.currentSavedId)
  }

  /** Deleting is idempotent: a second delete of the same id changes nothing. */
  lemma DeleteTwice(s: Saves, id: Str)
    ensures DeleteSavedPalace(DeleteSavedPalace(s, id), id) == DeleteSavedPalace(s, id)
  {
    var once := DeleteSavedPalace(s, id);
    FilterAllPass(once.saved, IdIsNot(id));
  }

  lemma AllMembership<T>(list: seq<T>, keep: T -> bool)
    ensures forall x :: x in Filter(list, keep) <==> x in list && keep(x)
  {
    forall x ensures x in Filter(list, keep) <==> x in list && keep(x) {
      FilterMembership(list, keep, x);
    }
  }

  /** Deleting an id that no entry carries leaves the list as it was. */
  lemma DeleteUnknownId(s: Saves, id: Str)
    requires forall i :: 0 <= i < |s.saved| ==> s.saved[i].id != id
    ensures DeleteSavedPalace(s, id).saved == s.saved
  {
    FilterAllPass(s.saved, IdIsNot(id));
  }
}

=== FILE: search.dfy ===
/** The search box (`applySearchFilter`): which rendered anchor entries (those of
    `state.anchorEntries`) stay visible for a query, and how many
    matched. Highlighting and panel colours are left out. `lower` stands for JavaScript's
    `toLowerCase`. */
module Search {
  import opened JsString
  import opened Tsv

  /** The query as compared: trimmed, then lower-cased. */
  function Query(rawQuery: Str, lower: Str -> Str): Str {
    lower(Trim(rawQuery))
  }

  /** The text a card is searched in: `${ru} ${en}`, lower-cased. */
  function Combined(r: Record, lower: Str -> Str): Str {
    lower(r.ru + [SPACE] + r.en)
  }

  /** Whether the entry of `r` stays visible: every entry does for an empty query; otherwise
      exactly those whose combined text contains the query. */
  function Visible(r: Record, rawQuery: Str, lower: Str -> Str): (v: bool)
    ensures Query(rawQuery, lower) == [] ==> v
    ensures Query(rawQuery, lower) != [] ==>
              (v <==> exists i :: OccursAt(Combined(r, lower), Query(rawQuery, lower), i))
  {
    var query := Query(rawQuery, lower);
    query == [] || Includes(Combined(r, lower), query)
  }

  /** The number of visible entries among `items`. */
  function CountVisible(items: seq<Record>, rawQuery: Str, lower: Str -> Str): (n: nat)
    ensures n <= |items|
    ensures n == 0 <==> forall k :: 0 <= k < |items| ==> !Visible(items[k], rawQuery, lower)
    ensures n == |items| <==> forall k :: 0 <= k < |items| ==> Visible(items[k], rawQuery, lower)
  {
    if items == [] then 0
    else
      var rest := CountVisible(items[1..], rawQuery, lower);
      assert forall k :: 1 <= k < |items| ==> items[k] == items[1..][k - 1];
      (if Visible(items[0], rawQuery, lower) then 1 else 0) + rest
  }

  /** The number of `true` entries. */
  function CountTrue(bs: seq<bool>): nat {
    if bs == [] then 0 else (if bs[0] then 1 else 0) + CountTrue(bs[1..])
  }

  /** `applySearchFilter(rawQuery)` over the rendered anchor entries `items`: the visibility
      of each, in order, and the match count it logs, which is the number of entries left
      visible (only for a non-empty query; none otherwise). A blank query shows every entry
      and logs nothing. */
  function ApplySearchFilter(items: seq<Record>, rawQuery: Str, lower: Str -> Str): (r: (seq<bool>, nat))
    ensures |r.0| == |items|
    ensures forall k :: 0 <= k < |items| ==> r.0[k] == Visible(items[k], rawQuery, lower)
    ensures Query(rawQuery, lower) == [] ==> r.1 == 0
    ensures Query(rawQuery, lower) != [] ==> r.1 == CountTrue(r.0)
    ensures AllWhitespace(rawQuery) && lower([]) == [] ==>
              r.1 == 0 && forall k :: 0 <= k < |items| ==> r.0[k]
  {
    var shown := seq(|items|, k requires 0 <= k < |items| => Visible(items[k], rawQuery, lower));
    CountTrueVisible(items, rawQuery, lower, shown);
    TrimEmptyIffBlank(rawQuery);
    (shown, if Query(rawQuery, lower) == [] then 0 else CountVisible(items, rawQuery, lower))
  }

  /** Counting the visible entries is counting the `true` flags of their visibility. */
  lemma {:induction false} CountTrueVisible(items: seq<Record>, rawQuery: Str, lower: Str -> Str, shown: seq<bool>)
    requires |shown| == |items|
    requires forall k :: 0 <= k < |items| ==> shown[k] == Visible(items[k], rawQuery, lower)
    ensures CountTrue(shown) == CountVisible(items, rawQuery, lower)
  {
    if items != [] {
      CountTrueVisible(items[1..], rawQuery, lower, shown[1..]);
    }
  }

  /** An occurrence inside an occurrence is an occurrence. */
  lemma OccursWithin(s: Str, t: Str, u: Str, i: nat, j: nat)
    requires OccursAt(s, t, i) && OccursAt(t, u, j)
    ensures OccursAt(s, u, i + j)
  {
    assert t == s[i..i + |t|];
    forall k | 0 <= k < |u| ensures s[i + j + k] == u[k] {
      assert u[k] == t[j + k];
    }
    assert s[i + j..i + j + |u|] == u;
  }

  /** Narrowing the query never shows more: a card visible for a query is visible for every
      non-empty part of it. */
  lemma NarrowingHides(r: Record, wide: Str, narrow: Str, lower: Str -> Str)
    requires Query(wide, lower) != [] && exists j :: OccursAt(Query(narrow, lower), Query(wide, lower), j)
    requires Visible(r, narrow, lower)
    ensures Visible(r, wide, lower)
  {
    var t, u := Query(narrow, lower), Query(wide, lower);
    var j :| OccursAt(t, u, j);
    var i :| OccursAt(Combined(r, lower), t, i);
    OccursWithin(Combined(r, lower), t, u, i, j);
  }

  /** A query of whitespace only shows every entry, whatever `lower` does to the empty
      string as long as it leaves it empty. */
  lemma BlankQueryShowsAll(items: seq<Record>, rawQuery: Str, lower: Str -> Str)
    requires AllWhitespace(rawQuery) && lower([]) == []
    ensures CountVisible(items, rawQuery, lower) == |items|
  {
    TrimEmptyIffBlank(rawQuery);
  }
}

=== FILE: slots.dfy ===
/** Where `buildAnchorEntity` puts the `index`-th anchor of a room's page: its tier, row and
    column on the room's wall grid, which wall the tier is on, or nowhere when the grid is
    full. The metric part (centre coordinates in metres) is left out. */
module Slots {
  import opened Wrappers
  import opened Arith

  /** The grid settings of a room or of the whole config; every field may be missing. */
  datatype Placement = Placement(
    cols: Option<int>, gridCols: Option<int>,
    rows: Option<int>, gridRows: Option<int>,
    tiers: Option<int>)

  /** `{ cols: 4, rows: 3, tiers: 2 }`, used when neither the room nor the config has one. */
  const DEFAULT_PLACEMENT := Placement(Some(4), None, Some(3), None, Some(2))

  /** The grid after defaulting: `tiers` is at least 1. */
  datatype Grid = Grid(cols: int, rows: int, tiers: int)

  /** `placement.x ?? placement.gridX ?? d` */
  function FirstOf(a: Option<int>, b: Option<int>, d: int): (r: int)
    ensures a.Some? ==> r == a.value
    ensures a.None? && b.Some? ==> r == b.value
    ensures a.None? && b.None? ==> r == d
  {
    a.OrElse(b.OrElse(d))
  }

  /** The grid of one placement: `cols ?? gridCols ?? 4` columns, `rows ?? gridRows ?? 3`
      rows, and `Math.max(tiers ?? 1, 1)` tiers. */
  function GridOf(p: Placement): (g: Grid)
    ensures g.cols == (if p.cols.Some? then p.cols.value else if p.gridCols.Some? then p.gridCols.value else 4)
    ensures g.rows == (if p.rows.Some? then p.rows.value else if p.gridRows.Some? then p.gridRows.value else 3)
    ensures g.tiers >= 1
    ensures p.tiers.Some? && p.tiers.value >= 1 ==> g.tiers == p.tiers.value
    ensures p.tiers.None? || p.tiers.value < 1 ==> g.tiers == 1
  {
    var t := p.tiers.OrElse(1);
    Grid(FirstOf(p.cols, p.gridCols, 4), FirstOf(p.rows, p.gridRows, 3), if t > 1 then t else 1)
  }

  /** The grid `buildAnchorEntity` uses: the room's grid when it has one, else the config's
      placement, else the default `{ cols: 4, rows: 3, tiers: 2 }`. */
  function ResolveGrid(roomGrid: Option<Placement>, configPlacement: Option<Placement>): (g: Grid)
    ensures g.tiers >= 1
    ensures roomGrid.Some? ==> g == GridOf(roomGrid.value)
    ensures roomGrid.None? && configPlacement.Some? ==> g == GridOf(configPlacement.value)
    ensures roomGrid.None? && configPlacement.None? ==> g == Grid(4, 3, 2)
  {
    GridOf(roomGrid.OrElse(configPlacement.OrElse(DEFAULT_PLACEMENT)))
  }

  /** A room's own grid wins: the config's placement then plays no part. */
  lemma RoomGridWins(room: Placement, a: Option<Placement>, b: Option<Placement>)
    ensures ResolveGrid(Some(room), a) == ResolveGrid(Some(room), b)
  {
  }

  /** A placement that spells out its columns, rows and a positive tier count is taken as it
      is, under either spelling of the column and row keys. */
  lemma ExplicitPlacementKept(c: int, r: int, t: int, other: Option<int>)
    requires t >= 1
    ensures GridOf(Placement(Some(c), other, Some(r), other, Some(t))) == Grid(c, r, t)
    ensures GridOf(Placement(None, Some(c), None, Some(r), Some(t))) == Grid(c, r, t)
  {
  }

  /** A slot on the grid: the tier, row and column, the tier's wall side (`tierSign`, -1 for
      the back wall and +1 for the front) and the Y rotation that faces the room. */
  datatype Slot = Slot(tier: nat, row: nat, col: nat, sign: int, rotation: int)

  /** Even tiers go on the back wall unrotated, odd tiers on the front wall turned round. */
  predicate WallOfTier(s: Slot) {
    if s.tier % 2 == 0 then s.sign == -1 && s.rotation == 0 else s.sign == 1 && s.rotation == 180
  }

  /** The slot of the anchor at `index` on its page, or nothing when the index is past the
      last tier (`tierIndex >= tiers`), in which case the anchor is not drawn. */
  function SlotOf(index: nat, g: Grid): (r: Option<Slot>)
    requires g.cols >= 1 && g.rows >= 1 && g.tiers >= 1
    ensures r.None? <==> index >= g.tiers * (g.cols * g.rows)
    ensures r.Some? ==> r.value.tier < g.tiers && r.value.row < g.rows && r.value.col < g.cols
    ensures r.Some? ==> WallOfTier(r.value)
    ensures r.Some? ==> r.value.tier * (g.cols * g.rows) + r.value.row * g.cols + r.value.col == index
  {
    var slots := g.cols * g.rows;
    var tier := index / slots;
    TierBound(index, slots, g.tiers);
    if tier >= g.tiers then None
    else
      var slot := index % slots;
      var row := slot / g.cols;
      var col := slot % g.cols;
      Decompose(index, g.cols, g.rows);
      var sign := if tier % 2 == 0 then -1 else 1;
      Some(Slot(tier, row, col, sign, if sign == -1 then 0 else 180))
  }

  /** The tier is past the last one exactly when the index is past the grid's capacity. */
  lemma TierBound(index: nat, slots: nat, tiers: nat)
    requires slots >= 1
    ensures index / slots >= tiers <==> index >= tiers * slots
  {
    var q, r := index / slots, index % slots;
    assert index == q * slots + r;
    if q >= tiers {
      assert q * slots >= tiers * slots;
    } else {
      assert (q + 1) * slots <= tiers * slots;
    }
  }

  /** An index is its tier's start plus its row's start plus its column, each in range. */
  lemma Decompose(index: nat, cols: nat, rows: nat)
    requires cols >= 1 && rows >= 1
    ensures var slots := cols * rows;
            var slot := index % slots;
            && slot / cols < rows && slot % cols < cols
            && (index / slots) * slots + (slot / cols) * cols + slot % cols == index
  {
    var slots := cols * rows;
    var slot := index % slots;
    RowBound(slot, cols, rows);
    assert index == (index / slots) * slots + slot;
    assert slot == (slot / cols) * cols + slot % cols;
  }

  /** The row of a slot within a tier is below the row count. */
  lemma RowBound(slot: nat, cols: nat, rows: nat)
    requires cols >= 1 && rows >= 1 && slot < cols * rows
    ensures slot / cols < rows
  {
    var q := slot / cols;
    assert slot == q * cols + slot % cols;
  }

  /** A position within a tier comes before the tier's end. */
  lemma WithinTier(row: nat, col: nat, cols: nat, rows: nat)
    requires row < rows && col < cols
    ensures row * cols + col < cols * rows
  {
    MulGap(row, rows - row, cols);
  }

  /** Every position of the grid is the slot of exactly one index: the index
      `tier * (cols * rows) + row * cols + col`. */
  lemma SlotOfPosition(tier: nat, row: nat, col: nat, g: Grid)
    requires g.cols >= 1 && g.rows >= 1 && tier < g.tiers && row < g.rows && col < g.cols
    ensures var r := SlotOf(tier * (g.cols * g.rows) + row * g.cols + col, g);
            r.Some? && r.value.tier == tier && r.value.row == row && r.value.col == col
  {
    var slots := g.cols * g.rows;
    var w := row * g.cols + col;
    WithinTier(row, col, g.cols, g.rows);
    var index := tier * slots + w;
    assert index / slots == tier && index % slots == w by {
      DivUnique(index, slots, tier, w);
    }
    assert w / g.cols == row && w % g.cols == col by {
      DivUnique(w, g.cols, row, col);
    }
  }

  /** Different indices on a page never share a slot. */
  lemma SlotsDistinct(i: nat, j: nat, g: Grid)
    requires g.cols >= 1 && g.rows >= 1 && g.tiers >= 1
    requires i != j && SlotOf(i, g).Some? && SlotOf(j, g).Some?
    ensures SlotOf(i, g).value != SlotOf(j, g).value
  {
  }

  /** With the default grid a page shows at most 24 anchors: 2 tiers of 4 by 3. */
  lemma DefaultGridHolds24(index: nat)
    ensures SlotOf(index, ResolveGrid(None, None)).Some? <==> index < 24
  {
  }
}

=== FILE: tsv.dfy ===
/** The row parser of app.js (`parseTSV`): one flashcard record per usable line of a
    tab-separated dataset. */
module Tsv {
  import opened Wrappers
  import opened JsString
  import opened Extract

  /** A flashcard as parsed: source text, translation, optional image and audio references, and
      the 0-based index of the line it came from among ALL lines of the text. */
  datatype Record = Record(ru: Str, en: Str, imageSrc: Option<Str>, audioSrc: Option<Str>, rowIndex: nat)

  /** What happens to one line: skipped silently when blank, skipped with a warning when it has
      fewer than four columns or no text in its first two, or kept. */
  datatype LineOutcome = Blank | TooFewColumns | MissingText | Kept(record: Record)

  const MIN_COLUMNS := 4

  function DropTrailingCR(piece: Str): (r: Str)
    ensures |piece| > 0 && piece[|piece| - 1] == CR ==> r + [CR] == piece
    ensures !(|piece| > 0 && piece[|piece| - 1] == CR) ==> r == piece
  {
    if |piece| > 0 && piece[|piece| - 1] == CR then piece[..|piece| - 1] else piece
  }

  /** `text.split(/\r?\n/)`. The leftmost match of `\r?\n` takes the CR that immediately precedes
      each LF, and that CR can never belong to the previous separator, so this is a split at
      every LF followed by dropping one CR from the end of every piece but the last. */
  function Lines(text: Str): (lines: seq<Str>)
    ensures |lines| == |Split(text, LF)|
    ensures forall i :: 0 <= i < |lines| ==> LF !in lines[i]
    ensures forall i :: 0 <= i < |lines| - 1 ==>
              lines[i] == Split(text, LF)[i] || lines[i] + [CR] == Split(text, LF)[i]
    ensures forall i :: 0 <= i < |lines| - 1 ==>
              (lines[i] + [CR] == Split(text, LF)[i] <==>
               |Split(text, LF)[i]| > 0 && Split(text, LF)[i][|Split(text, LF)[i]| - 1] == CR)
    ensures lines[|lines| - 1] == Split(text, LF)[|lines| - 1]
  {
    var pieces := Split(text, LF);
    seq(|pieces|, i requires 0 <= i < |pieces| =>
      if i < |pieces| - 1 then DropTrailingCR(pieces[i]) else pieces[i])
  }

  /** `ls` joined with CR LF line breaks. */
  function JoinCrLf(ls: seq<Str>): Str
    requires |ls| >= 1
  {
    Join(seq(|ls|, k requires 0 <= k < |ls| => if k < |ls| - 1 then ls[k] + [CR] else ls[k]), LF)
  }

  /** Lines joined with CR LF breaks split back into the same lines, whatever CRs they hold. */
  lemma LinesOfCrLfJoin(ls: seq<Str>)
    requires |ls| >= 1 && forall k :: 0 <= k < |ls| ==> LF !in ls[k]
    ensures Lines(JoinCrLf(ls)) == ls
  {
    var parts := seq(|ls|, k requires 0 <= k < |ls| => if k < |ls| - 1 then ls[k] + [CR] else ls[k]);
    forall k | 0 <= k < |parts| ensures LF !in parts[k] {
      if k < |ls| - 1 {
        assert parts[k] == ls[k] + [CR];
      }
    }
    SplitJoin(parts, LF);
    var lines := Lines(JoinCrLf(ls));
    forall k | 0 <= k < |ls| ensures lines[k] == ls[k] {
      if k < |ls| - 1 {
        assert (ls[k] + [CR])[..|ls[k]|] == ls[k];
      }
    }
  }

  /** Lines joined with bare LF breaks split back into the same lines when none but the last
      ends in a CR (such a CR would be read as part of the break). */
  lemma LinesOfLfJoin(ls: seq<Str>)
    requires |ls| >= 1 && forall k :: 0 <= k < |ls| ==> LF !in ls[k]
    requires forall k :: 0 <= k < |ls| - 1 ==> ls[k] == [] || ls[k][|ls[k]| - 1] != CR
    ensures Lines(Join(ls, LF)) == ls
  {
    SplitJoin(ls, LF);
  }

  /** The parse of one line that sits at index `index` of the split text. */
  function ParseLine(line: Str, index: nat, decode: Str -> Str): LineOutcome {
    if |line| == 0 || |Trim(line)| == 0 then Blank
    else
      var parts := Split(line, TAB);
      if |parts| < MIN_COLUMNS then TooFewColumns
      else
        var ru := Trim(parts[0]);
        var en := Trim(parts[1]);
        if ru == [] && en == [] then MissingText
        else
          Kept(Record(ru, en,
                      ExtractImageSrc(Trim(parts[2]), decode),
                      ExtractAudioSrc(Trim(parts[3]), decode),
                      index))
  }

  /** A usable line: not blank, at least four tab-separated columns, and some text in its
      first or second column. */
  predicate Usable(line: Str) {
    && !AllWhitespace(line)
    && |Split(line, TAB)| >= 4
    && (Trim(Split(line, TAB)[0]) != [] || Trim(Split(line, TAB)[1]) != [])
  }

  /** A line is kept exactly when it is usable; the record then holds the trimmed columns. */
  lemma ParseLineKeeps(line: Str, index: nat, decode: Str -> Str)
    ensures ParseLine(line, index, decode).Kept? <==> Usable(line)
    ensures ParseLine(line, index, decode).Kept? ==>
              var r := ParseLine(line, index, decode).record;
              var parts := Split(line, TAB);
              && r.ru == Trim(parts[0]) && r.en == Trim(parts[1])
              && r.imageSrc == ExtractImageSrc(Trim(parts[2]), decode)
              && r.audioSrc == ExtractAudioSrc(Trim(parts[3]), decode)
              && r.rowIndex == index
  {
    TrimEmptyIffBlank(line);
  }

  /** The outcome of every line of `text`, in order: exactly the usable lines are kept, each
      as a record of its own line index. */
  function Outcomes(text: Str, decode: Str -> Str): (outcomes: seq<LineOutcome>)
    ensures |outcomes| == |Lines(text)|
    ensures forall i :: 0 <= i < |outcomes| ==> outcomes[i] == ParseLine(Lines(text)[i], i, decode)
    ensures forall i :: 0 <= i < |outcomes| ==> (outcomes[i].Kept? <==> Usable(Lines(text)[i]))
    ensures forall i :: 0 <= i < |outcomes| && outcomes[i].Kept? ==> outcomes[i].record.rowIndex == i
  {
    var lines := Lines(text);
    EveryLineKeeps(lines, decode);
    seq(|lines|, i requires 0 <= i < |lines| => ParseLine(lines[i], i, decode))
  }

  lemma EveryLineKeeps(lines: seq<Str>, decode: Str -> Str)
    ensures forall i :: 0 <= i < |lines| ==> (ParseLine(lines[i], i, decode).Kept? <==> Usable(lines[i]))
    ensures forall i :: 0 <= i < |lines| && ParseLine(lines[i], i, decode).Kept? ==>
              ParseLine(lines[i], i, decode).record.rowIndex == i
  {
    forall i | 0 <= i < |lines| ensures (ParseLine(lines[i], i, decode).Kept? <==> Usable(lines[i]))
                                     && (ParseLine(lines[i], i, decode).Kept? ==> ParseLine(lines[i], i, decode).record.rowIndex == i) {
      ParseLineKeeps(lines[i], i, decode);
    }
  }

  /** Every kept record carries the index of its own line. */
  predicate WellIndexed(outcomes: seq<LineOutcome>) {
    forall i :: 0 <= i < |outcomes| && outcomes[i].Kept? ==> outcomes[i].record.rowIndex == i
  }

  lemma OutcomesWellIndexed(text: Str, decode: Str -> Str)
    ensures WellIndexed(Outcomes(text, decode))
  {
    var outcomes := Outcomes(text, decode);
    forall i | 0 <= i < |outcomes| && outcomes[i].Kept?
      ensures outcomes[i].record.rowIndex == i
    {
      ParseLineKeeps(Lines(text)[i], i, decode);
    }
  }

  /** The kept records of `outcomes[from..]`, in line order. */
  function Collect(outcomes: seq<LineOutcome>, from: nat): (records: seq<Record>)
    requires from <= |outcomes|
    ensures |records| <= |outcomes| - from
    decreases |outcomes| - from
  {
    if from == |outcomes| then []
    else
      var rest := Collect(outcomes, from + 1);
      if outcomes[from].Kept? then [outcomes[from].record] + rest else rest
  }

  /** Each of `records` is the kept outcome of its own line, at or after line `from`. */
  predicate KeptFrom(outcomes: seq<LineOutcome>, from: nat, records: seq<Record>) {
    forall k :: 0 <= k < |records| ==>
      from <= records[k].rowIndex < |outcomes| && outcomes[records[k].rowIndex] == Kept(records[k])
  }

  /** `records` are in strictly increasing line order. */
  predicate Ascending(records: seq<Record>) {
    forall k, l :: 0 <= k < l < |records| ==> records[k].rowIndex < records[l].rowIndex
  }

  /** Line `i` is the line of some record. */
  predicate Covers(records: seq<Record>, i: nat) {
    exists k :: 0 <= k < |records| && records[k].rowIndex == i
  }

  lemma {:induction false} CollectSound(outcomes: seq<LineOutcome>, from: nat)
    requires from <= |outcomes| && WellIndexed(outcomes)
    ensures KeptFrom(outcomes, from, Collect(outcomes, from))
    decreases |outcomes| - from
  {
    if from < |outcomes| {
      var rest := Collect(outcomes, from + 1);
      CollectSound(outcomes, from + 1);
      if outcomes[from].Kept? {
        var records := [outcomes[from].record] + rest;
        forall k | 0 <= k < |records|
          ensures from <= records[k].rowIndex < |outcomes| && outcomes[records[k].rowIndex] == Kept(records[k])
        {
          if k > 0 {
            assert records[k] == rest[k - 1];
          }
        }
      }
    }
  }

  lemma {:induction false} CollectAscending(outcomes: seq<LineOutcome>, from: nat)
    requires from <= |outcomes| && WellIndexed(outcomes)
    ensures Ascending(Collect(outcomes, from))
    decreases |outcomes| - from
  {
    if from < |outcomes| {
      var rest := Collect(outcomes, from + 1);
      CollectAscending(outcomes, from + 1);
      CollectSound(outcomes, from + 1);
      if outcomes[from].Kept? {
        var records := [outcomes[from].record] + rest;
        forall k, l | 0 <= k < l < |records| ensures records[k].rowIndex < records[l].rowIndex {
          assert records[l] == rest[l - 1];
          if k > 0 {
            assert records[k] == rest[k - 1];
          }
        }
      }
    }
  }

  /** No kept outcome from `from` on is left out. */
  lemma {:induction false} CollectComplete(outcomes: seq<LineOutcome>, from: nat, i: nat)
    requires from <= i < |outcomes| && WellIndexed(outcomes) && outcomes[i].Kept?
    ensures Covers(Collect(outcomes, from), i)
    decreases |outcomes| - from
  {
    var rest := Collect(outcomes, from + 1);
    if i == from {
      assert Collect(outcomes, from)[0].rowIndex == i;
    } else {
      CollectComplete(outcomes, from + 1, i);
      var k :| 0 <= k < |rest| && rest[k].rowIndex == i;
      if outcomes[from].Kept? {
        assert Collect(outcomes, from)[k + 1] == rest[k];
      } else {
        assert Collect(outcomes, from)[k] == rest[k];
      }
    }
  }

  /** `parseTSV`. */
  function ParseTsv(text: Str, decode: Str -> Str): (records: seq<Record>)
    ensures |records| <= |Lines(text)|
  {
    Collect(Outcomes(text, decode), 0)
  }

  /** Each record is the parse of its own line, which exists. */
  predicate ParsedLines(text: Str, decode: Str -> Str, records: seq<Record>) {
    forall k :: 0 <= k < |records| ==>
      records[k].rowIndex < |Lines(text)| &&
      ParseLine(Lines(text)[records[k].rowIndex], records[k].rowIndex, decode) == Kept(records[k])
  }

  /** The records come out with strictly increasing line indices, each the parse of its own
      line, and no usable line is left out. */
  lemma ParseTsvSpec(text: Str, decode: Str -> Str)
    ensures ParsedLines(text, decode, ParseTsv(text, decode))
    ensures Ascending(ParseTsv(text, decode))
    ensures forall i :: 0 <= i < |Lines(text)| && ParseLine(Lines(text)[i], i, decode).Kept? ==>
              Covers(ParseTsv(text, decode), i)
  {
    var outcomes := Outcomes(text, decode);
    OutcomesWellIndexed(text, decode);
    CollectSound(outcomes, 0);
    CollectAscending(outcomes, 0);
    forall i | 0 <= i < |Lines(text)| && ParseLine(Lines(text)[i], i, decode).Kept?
      ensures Covers(ParseTsv(text, decode), i)
    {
      CollectComplete(outcomes, 0, i);
    }
  }

  /** Every record came from a non-blank line with at least four columns, holds that line's
      trimmed first two columns and has text in at least one of them. */
  lemma ParsedRecordShape(text: Str, decode: Str -> Str, r: Record)
    requires r in ParseTsv(text, decode)
    ensures r.rowIndex < |Lines(text)|
    ensures !AllWhitespace(Lines(text)[r.rowIndex])
    ensures |Split(Lines(text)[r.rowIndex], TAB)| >= 4
    ensures r.ru == Trim(Split(Lines(text)[r.rowIndex], TAB)[0])
    ensures r.en == Trim(Split(Lines(text)[r.rowIndex], TAB)[1])
    ensures r.ru != [] || r.en != []
  {
    ParseTsvSpec(text, decode);
    ParseLineKeeps(Lines(text)[r.rowIndex], r.rowIndex, decode);
  }

  /** Conversely, every usable line yields exactly the record it parses to. */
  lemma UsableLineIsParsed(text: Str, decode: Str -> Str, i: nat)
    requires i < |Lines(text)|
    ensures Usable(Lines(text)[i]) ==>
              && ParseLine(Lines(text)[i], i, decode).Kept?
              && ParseLine(Lines(text)[i], i, decode).record in ParseTsv(text, decode)
  {
    var line := Lines(text)[i];
    ParseLineKeeps(line, i, decode);
    if Usable(line) {
      var records := ParseTsv(text, decode);
      ParseTsvSpec(text, decode);
      assert Covers(records, i);
      var k :| 0 <= k < |records| && records[k].rowIndex == i;
      assert ParseLine(line, i, decode) == Kept(records[k]);
    }
  }
}

=== FILE: wrappers.dfy ===
/** Optional values and results, standing in for JavaScript's `null` and for the early returns
    that app.js uses to reject an operation. */
module Wrappers {

  /** `None` plays the role of `null` / `undefined`. */
  datatype Option<+T> = None | Some(value: T) {

    /** JavaScript's `x ?? fallback`. */
    function OrElse(fallback: T): T {
      match this
      case Some(v) => v
      case None => fallback
    }
  }

  /** An operation that either produces a value or is refused with a reason. */
  datatype Result<+R, +E> = Success(value: R) | Failure(error: E)
}
